=== FILE: README.md ===
# bioniq-cli core in Dafny

A Dafny model of the command-line client for the bioniq inscription
marketplace on the Internet Computer. Four parts are modelled:

- **Byte helpers** (`utility/icp.js`):
  - hexadecimal text in both directions
  - the big-endian byte encoding of numbers
  - 32-byte sub-accounts from a number, a hex string or a principal
  - `to32bits`
  - the record behind the authorization memo (`constructVoltMemo`)
- **Bounded worker pool** (`doConcurrent` in `utility/utility.js`). It runs at most `threads` calls at once. A call that throws goes back to the front of the queue and is retried after a timer. The pool resolves when nothing is queued or running.
- **Floor selection and address check** (`utility/utility.js`):
  - `getInscriptionsToBuy` pages through the cheapest listings of a collection, applying a price cap, a running-total cap and a count cap.
  - `isValidP2wpkhAddress` checks the address pattern.
- **Commands** (`commands/inscriptions.js`, `commands/sweep.js`):
  - `inscriptions owned | list | delist | send` and `sweep`
  - each command's option checks and selection of inscriptions
  - the one canister call each worker makes per item
  - how a reply feeds back into the worker pool: an `err` answer is logged, while a rejected call is retried

Files, one module each:

| file | module | role |
|---|---|---|
| `wrappers.dfy` | `Wrappers` | `Option` and `Result` |
| `seqs.dfy` | `Seqs` | `Filter` and order-preserving subsequences |
| `js.dfy` | `Js` | JavaScript numbers and NaN, ToInt32 / ToUint32, truthiness, `parseInt(s, 16)` |
| `icp.dfy` | `Icp` | `utility/icp.js` |
| `concurrent.dfy` | `Concurrent` | `doConcurrent` as a transition system |
| `canister.dfy` | `Canister` | canister call and reply shapes, and how an outcome becomes a pool event |
| `utility.dfy` | `Utility` | `getInscriptionsToBuy` and `isValidP2wpkhAddress` |
| `inscriptions.dfy` | `Inscriptions` | the `inscriptions` commands |
| `sweep.dfy` | `Sweep` | the `sweep` command |

## How the model is set up

- Everything the program gets from outside becomes a parameter:
  - the indexer's pages of listings
  - the wallet's inscriptions and owned ids
  - whether a wallet is configured
  - the address lookup and the collection lookup
  - the balance
  - the user's yes/no answer
  - the Candid encoder
  - the token-index decoder
  - the volt address
- JavaScript Numbers are modelled as integers or NaN (`Js.Number`).
  - Bitwise operators go through ToInt32, written out explicitly.
  - So `numberToByteArray` truncates from 2^31 on, and the model shows this. `Icp.NumberToByteArrayWrapsAtTwo31` proves that 2^31 encodes as `[0]`.
- `doConcurrent` is modelled as a state machine driven by three events:
  - `Tick`: a `setTimeout` fires and calls `processNext()`.
  - `Succeed(d)`: the awaited call resolved.
  - `Fail(d)`: the awaited call threw.
  - Wall-clock time is not modelled: a pending timer may fire at any point.
- Command-line options that are strings are modelled by their truthiness (non-empty) and their `Number(...)` value.
  - This is why `delist --price 0` still filters: the string `"0"` is non-empty, so it is truthy.
  - It is also why `sweep --price abc` passes every check and then sets no limit at all.

## Model

| member | source | states |
|---|---|---|
| Js.ParseIntHex | utility/icp.js:47 | `parseInt(s, 16)` on text that is empty or starts with a character that is not white space, a sign or a hex digit gives NaN; on text that starts with a hex digit other than a `0x` prefix, the value of the longest run of leading hex digits |
| Js.ParseIntHexSkipsWhitespace | utility/icp.js:47 | leading white space is skipped: it never changes the value |
| Js.ParseIntHexSign | utility/icp.js:47 | a leading `-` negates and a leading `+` keeps the value of what follows, when that starts at once; a sign followed by nothing, white space or another sign gives NaN |
| Js.ParseIntHexPrefix | utility/icp.js:47 | after a `0x` or `0X` prefix the hex digits that follow are read; a prefix with no digit after it gives NaN |
| Icp.NumberToByteArray | utility/icp.js:50-62 | throws exactly for negative input; otherwise returns 1 to 4 bytes |
| Icp.NumberToByteArrayIsMinimal | utility/icp.js:55-61 | for 0 < n < 2^31 the bytes are the minimal big-endian encoding of n: nonzero first byte, decodes back to n |
| Icp.NumberToByteArrayWrapsAtTwo31 | utility/icp.js:56-59 | the ToInt32 conversion of `&` and `>>=` maps 2^31 to `[0]`, which does not decode back to 2^31 |
| Icp.SubaccountFromNumber | utility/icp.js:63-68 | throws exactly for negative input; otherwise 32 bytes |
| Icp.SubaccountFromNumberEncodes | utility/icp.js:63-68 | below 2^31 the sub-account is zeros then the number's bytes, and decodes back to the number |
| Icp.SubaccountFromNumberExamples | utility/icp.js:63-68 | 0 gives 32 zero bytes; 256 gives 30 zeros then 1, 0 |
| Icp.ToHexString | utility/icp.js:40-44 | two lower-case hex digits per byte |
| Icp.FromHexString | utility/icp.js:45-49 | one entry per pair of digits after an optional lower-case `0x`; an odd tail gives one more entry |
| Icp.HexRoundTrip | utility/icp.js:40-49 | `fromHexString(toHexString(b))` returns every byte of `b` |
| Icp.SubaccountFromHex | utility/icp.js:69-74 | throws when the hex text decodes to more than 32 entries; otherwise 32 entries: zeros, then the decoded ones |
| Icp.HexFromPrincipal | utility/icp.js:81-83 | the hex text decodes back to the principal's bytes |
| Icp.SubaccountFromPrincipal | utility/icp.js:78-80 | throws exactly when the principal has more than 32 bytes; otherwise zeros followed by the principal's bytes |
| Icp.To32Bits | utility/icp.js:31-35 | four bytes whose big-endian value is ToUint32(num) |
| Icp.To32BitsInverse | utility/icp.js:31-35 | `to32bits` inverts the big-endian reading of any four bytes |
| Icp.VoltMemoRecord | utility/icp.js:90-117 | the memo record keeps `type` and every field that is present; an absent amount or offer id becomes 0, an absent token id or inscription id becomes `''` |
| Icp.OmittedFieldsTakeDefaults | utility/icp.js:104-111 | an absent field encodes exactly like an explicit `0` or `''` |
| Concurrent.StartEstablishesInv | utility/utility.js:33-41 | the initial `processNext()` establishes the pool invariant |
| Concurrent.StepPreservesInv | utility/utility.js:42-76 | every timer firing, resolved call and thrown call preserves the pool invariant |
| Concurrent.ReachableInvariant | utility/utility.js:41-76 | in every reachable state: `ct` counts the running calls and never exceeds `threads`; queue, running and completed tasks together are exactly the input; no task completes twice; resolved means nothing is queued or running; an unresolved pool always has a pending event |
| Concurrent.ResolvedCompletesEachItemOnce | utility/utility.js:54-66 | when the promise resolves, every input item has completed exactly once, and nothing else has |
| Concurrent.EmptyInputResolvesAtOnce | utility/utility.js:65-66 | an empty input resolves on the first call |
| Concurrent.FailRequeuesAtFront | utility/utility.js:56-60 | a thrown call puts its task back at the front of the queue, frees its slot and arms a timer |
| Concurrent.SucceedCompletesOnce | utility/utility.js:53-55 | a resolved call appends its task to `completed` once, and its slot goes to the head of the queue |
| Concurrent.RunExtendsCompleted | utility/utility.js:53-59 | `completed` is only ever appended to: every state a run reaches extends the completed list of the state it started from |
| Concurrent.DispatchTakesHead | utility/utility.js:45-61 | dispatching always takes the head of the queue, so retried tasks go first |
| Concurrent.RetriedItemCompletesOnce | utility/utility.js:51-66 | one item that throws twice and then succeeds is completed exactly once |
| Canister.Settle | commands/inscriptions.js:134-176 | once a worker has its reply, it throws only when the awaited call rejected; an `err` reply is logged and the item completes |
| Canister.ApplicationErrorIsTerminal | commands/inscriptions.js:266-275 | an `err` reply completes the item: it is appended to `completed` once, and it is neither queued nor awaited afterwards |
| Canister.ErrorStaysCompleted | commands/inscriptions.js:266-275 | after an `err` reply, in every state any later events reach, the item is still completed exactly once and is neither queued nor awaited |
| Canister.RejectedCallIsRetried | utility/utility.js:56-60 | a rejected call puts its item back at the head of the queue |
| Utility.KeepWithinTotal | utility/utility.js:15-22 | the running total counts every price; the kept items are the longest prefix within the budget |
| Utility.SelectFromPageSpec | utility/utility.js:2-27 | one page: the kept listings are a prefix of the page's unsold listings under the price cap, cut only where the count cap is reached, the count cap is negative, or the next listing would pass the total cap; their number is fixed in every case: the count cap applies to what the total cap kept, and a negative count cap drops that many from the back; with no caps all of them; `available` counts every unsold listing; the remaining total is the cap less every price the running total saw |
| Utility.InscriptionsToBuy | utility/utility.js:1-32 | every selected listing is unsold and under the price cap, and they come in page order |
| Utility.ReadsNoPageAfterShortPage | utility/utility.js:6-30 | pages after the first short page never change the result |
| Utility.PriceCapSelectsEveryPricedUnsold | utility/utility.js:8-31 | with no count or total limit, the selection is exactly the unsold listings under the price cap of every page up to the first short one, in order |
| Utility.NumberLimitOverrunAsWritten | utility/utility.js:23-29 | `--number 20` with a full first page selects 21 listings |
| Utility.TotalLimitOverrunAsWritten | utility/utility.js:15-29 | `--max 100` that the first page spends exactly selects listings costing 105 |
| Utility.NumberLimitGoesNegativeAsWritten | utility/utility.js:23-29 | `--number 5` over two full pages selects 10 listings: the negative limit passed to the second page drops only its last 15 |
| Utility.InscriptionsToBuyCapped | utility/utility.js:1-32 | the corrected selection: unsold listings under the price cap, in page order; never more than `maxNumber` listings and never more than `maxTotal` in prices; nothing when either limit is negative |
| Utility.CappedTakesPricedPrefix | utility/utility.js:1-32 | the corrected selection is a prefix of all unsold listings under the price cap across the pages; it is shorter only where `--number` is reached, a limit is negative, or the next listing would pass `--max`; with neither limit it is all of them |
| Utility.CappedAgreesOnOnePage | utility/utility.js:1-32 | on a collection that fits on one page, the corrected selection equals the as-written one |
| Utility.IsValidP2wpkhAddress | utility/utility.js:84-87 | true exactly for `bc1` followed by 39 or 59 bech32 characters |
| Utility.ValidAddressAvoidsLookalikes | utility/utility.js:85 | after the prefix, a valid address has only lower-case letters and digits, and none of `1`, `b`, `i`, `o` |
| Inscriptions.Narrow | commands/inscriptions.js:77-113 | `--collection` wins over `--id`; an empty option is absent; order is kept |
| Inscriptions.Confirm | commands/inscriptions.js:79-94 | an empty selection stops with "nothing found"; a "no" answer stops the command |
| Inscriptions.Owned | commands/inscriptions.js:18-36 | `--listed` with `--unlisted` is rejected, then a missing wallet; in every other case it succeeds, with exactly the owned inscriptions that pass the chosen filter |
| Inscriptions.ListSelection | commands/inscriptions.js:51-130 | an amount under 500 is rejected (NaN is not), then `--collection` with `--id`, then a missing wallet; past those, it finds nothing exactly when no owned inscription is unlisted (or any, with `--updateListed`) and on target, and it goes ahead exactly when such an inscription exists and the user confirms, with exactly those inscriptions |
| Inscriptions.ListCall | commands/inscriptions.js:134-176 | a listed inscription is repriced only when its amount differs; any other is authorized for listing with amount 1, its token index, 180 days and a `createListing` memo |
| Inscriptions.RelistingAtSamePriceIsNoOp | commands/inscriptions.js:136-144 | listing again at the current price makes no call |
| Inscriptions.NaNAmountIsNotRejected | commands/inscriptions.js:53-57 | a non-numeric amount passes the minimum check, and the worker asks to reprice every listed inscription at NaN |
| Inscriptions.DelistSelection | commands/inscriptions.js:188-263 | `--collection` with `--id` is rejected, then a missing wallet; past those, it finds nothing exactly when no owned inscription is listed, on target and (with `--price`) at a loosely equal amount, and it goes ahead exactly when one is and the user confirms, with exactly those inscriptions |
| Inscriptions.DelistCancelsSelectedListings | commands/inscriptions.js:188-275 | one `cancelListing` per selected inscription, by its token id; a token's listing is cancelled exactly when an owned, listed inscription with that token matches the target and, if `--price` is given, has a loosely equal amount |
| Inscriptions.DispatchHandlesEachOnce | commands/inscriptions.js:266-275 | the pool runs at most 5 worker calls at once, and when it resolves the worker has finished for each selected inscription exactly once |
| Inscriptions.DelistZeroPriceStillFilters | commands/inscriptions.js:190-209 | `--price 0` selects only the listings at 0 |
| Inscriptions.SendSelection | commands/inscriptions.js:287-364 | an invalid address, then a missing wallet, then an address the indexer rejects, stop the command; past those, it finds nothing exactly when no owned inscription is unlisted and on target, and it goes ahead exactly when one is and the user confirms, sending exactly those to the resolved address |
| Inscriptions.SendTransfersSelection | commands/inscriptions.js:300-382 | one `ext` transfer per selected inscription: amount 1 of its decoded token index, to the address the indexer returned; every unlisted, owned inscription that matches the target is transferred, and nothing else |
| Inscriptions.SendCollectionOverridesId | commands/inscriptions.js:311-330 | `send` ignores `--id` when `--collection` is given, where `list` and `delist` reject the combination |
| Sweep.LimitOf | commands/sweep.js:43-45 | `Number(option)` or else 0: absent and non-numeric options become 0 |
| Sweep.CheckOptions | commands/sweep.js:20-35 | fails exactly when no limit is given or a given limit converts to 0; otherwise the numeric limits |
| Sweep.NonNumericLimitIsNoLimit | commands/sweep.js:20-46 | `--price abc` alone passes every check, and the selection is every unsold listing up to the first short page |
| Sweep.ExcludeOwned | commands/sweep.js:48-50 | exactly the selected listings whose id the wallet does not own, in order |
| Sweep.FoldTotal | commands/sweep.js:55 | the left fold adds each price plus the fee of 10 |
| Sweep.EstimatedTotal | commands/sweep.js:55 | the shown total is the sum of prices plus 10 per purchase |
| Sweep.BuyCall | commands/sweep.js:97-120 | an `icrc1` authorization of the price with fee 10 to the trade canister for 3600 s, with a `buyListing` memo naming the token |
| Sweep.EstimateMatchesCalls | commands/sweep.js:55-120 | the total shown equals the sum of amount plus fee over all buy calls |
| Sweep.Conclude | commands/sweep.js:47-94 | it goes ahead exactly when there is a wallet, some selected listing is not already owned, and the user confirms; it then buys exactly the selected listings not already owned, in order; without a wallet, or with nothing left, or with a "no", nothing is bought; the total is prices plus fees; the shortfall prompt appears exactly when the total exceeds the balance |
| Sweep.SweepCommand | commands/sweep.js:19-127 | option failures come first, then an unknown collection; otherwise the outcome is `Conclude` applied to `getInscriptionsToBuy` as written; what is bought is unsold, not owned, under the price cap, in collection order |
| Sweep.PriceOnlySweepBuysEveryPricedListing | commands/sweep.js:43-50 | with `--price` alone, the sweep buys exactly the unsold listings at or under the price that the wallet does not hold, or nothing when there are none |
| Sweep.SweepNumberOverrunAsWritten | commands/sweep.js:44-50 | `sweep --number 20` on a full page of 20 unsold listings followed by one more buys 21 |
| Sweep.SweepCommandCapped | commands/sweep.js:19-127 | the sweep on the corrected selection: the same checks and steps, and what it buys stays within `--number` listings and `--max` in prices |
| Sweep.CappedSweepAgreesOnOnePage | commands/sweep.js:43-50 | on a collection that fits on one page, the corrected sweep and the sweep as written agree whenever `--number` is not negative |
| Sweep.BalanceOnlyChangesPrompt | commands/sweep.js:61-94 | the balance changes only which prompt is shown, never what is bought or whether the sweep goes ahead |

## Left out

- `mnemonicToId` (bip39 seed and Ed25519 key generation): cryptography from libraries, not part of this model.
- `createIcpApi`, the HTTP agent and every canister call: network I/O. A reply is a `Canister.Reply` parameter.
- The Candid encoding inside `constructVoltMemo`: this is `IDL.encode`, a library function, so it is an `encode` parameter. The model covers the record it is given.
- `Principal.fromText` / `toText`, `getSubaccountFromPrincipalText`: principal text parsing is library code. Principals are modelled by their raw bytes.
- `getVoltAddress`, `decodeTokenId`, `makeTokenId`: these come from the extjs library, which is not part of this model. The volt address and the token-index decoder are parameters.
- `getAllOwnedInscriptions`, the listing pages, the collection and address lookups: HTTP fetches. Their results are parameters.
- The `inscription/<id>/update` notification: a fire-and-forget fetch whose result is never read.
- `conf` and `inquirer`: the configured wallet and the user's answer are the `hasWallet` and `confirmed` parameters.
- Spinner output, console messages, and the progress messages `doConcurrent` prints in debug mode: output only.
- The `--collection` option of `inscriptions owned`: it is declared, but the command never applies it.
- The `waitTime` delay: timers may fire in any order and at any point.
- Fractional numbers, `-0` and Infinity: Numbers are modelled as integers or NaN. `parseInt` is exact where JavaScript rounds above 2^53, which cannot happen for the one- or two-character inputs `fromHexString` passes.
- UTF-16: strings are sequences of Unicode characters, not UTF-16 code units.
- `commands/wallet.js`, `index.js`, and everything in the IDL files except the `ok`/`err` reply shape.
- Concurrent.ReachableInvariant: progress is stated as "an unresolved pool always has a pending event", not as eventual resolution. Timer and reply fairness are not modelled, and a call that always throws is retried forever.
- Utility.InscriptionsToBuy: the selection is stated exactly per page (`Utility.SelectFromPageSpec`) and across pages when there is no count or total limit (`Utility.PriceCapSelectsEveryPricedUnsold`). With those limits, the code as written is not a prefix of the priced listings and does not keep the limits across pages (see Findings), so no cross-page rule is promised.
- Sweep.SweepCommand: no bound on the number or the total of what is bought, because the code as written has none across pages (`Sweep.SweepNumberOverrunAsWritten`; see Findings). `Sweep.SweepCommandCapped` carries the bounds.
- Canister.Settle: a worker can also throw before or while encoding its call (a malformed token id in `decodeTokenId`, a NaN amount given to `IDL.Nat`); the encoder and the token-index decoder are modelled as total functions, so such an item is not shown being retried.
- Icp.SubaccountFromNumber: the contents are stated below 2^31 only (`Icp.SubaccountFromNumberEncodes`). Above that, the byte encoding truncates (`Icp.NumberToByteArrayWrapsAtTwo31`).

## Findings

In every row the budget for the next page is computed as a remainder and passed on as a plain limit.
- When the remainder is exactly 0, it is falsy, so "nothing left" becomes "no limit" (first two rows).
- The count remainder subtracts every unsold listing of the page, not the ones kept, so it can go negative. A negative limit is truthy, and `slice(0, negative)` drops listings from the back rather than keeping none (third row).

`Sweep.SweepCommand` models the command on the selection as written; `Sweep.SweepNumberOverrunAsWritten` shows the first row through the whole command. `Sweep.SweepCommandCapped` is the same command on the corrected selection, `Utility.InscriptionsToBuyCapped`. That selection carries what is left of each budget: the count budget never turns into "no limit" and never goes below 0. The total budget, like the code, subtracts every price the running total saw, and a listing is kept only while the prices kept stay within `--max`.

| source | as written | input that shows it | evidently intended | confidence | as-written member | corrected member |
|---|---|---|---|---|---|---|
| utility/utility.js:23-29 | the next page gets `maxNumber - availableResults`; when that is 0, the next page has no count limit | `--number 20`; the first page has 20 unsold listings and the second has one more: 21 are selected | never select more than `--number` listings | high; not executed | Utility.NumberLimitOverrunAsWritten | Utility.InscriptionsToBuyCapped |
| utility/utility.js:15-29 | the next page gets `maxTotal - total`; when the budget is spent exactly, that is 0 and the next page has no total limit | `--max 100`; 20 unsold listings at 5 on the first page and one more at 5 on the second: the selection costs 105 | never select listings whose prices add up to more than `--max` | high; not executed | Utility.TotalLimitOverrunAsWritten | Utility.InscriptionsToBuyCapped |
| utility/utility.js:23-29 | the next page gets `maxNumber - availableResults`, which is negative once a full page has more unsold listings than the limit; `slice(0, -k)` then keeps all but the last k listings of the next page | `--number 5`; two full pages of unsold listings: 10 are selected | never select more than `--number` listings | high; not executed | Utility.NumberLimitGoesNegativeAsWritten | Utility.InscriptionsToBuyCapped |

=== FILE: canister.dfy ===
/**
  The canister calls the command workers make and what becomes of their
  replies. Every method the commands await (`updateListingPrice`,
  `cancelListing`, `user_authorize`, `user_transfer`) answers a Candid
  variant `{ok: …}` or `{err: text}` (utility/idl/trade.did.js,
  utility/idl/volt.did.js); the `ok` payload is never read.
*/
module Canister {
  import Js
  import Icp
  import Concurrent
  import opened Wrappers

  /** The Candid reply of a call. */
  datatype Response = Ok | Err(message: string)

  /** An awaited call either gets a reply or rejects (agent, network or encoding failure). */
  datatype Reply = Answered(response: Response) | Rejected

  /**
    The volt `TransferRequest` record. The Candid `opt` fields, written
    `[]` or `[x]` in JavaScript, are `Option`s.
  */
  datatype TransferRequest = TransferRequest(
    standard: string,
    canister: string,
    to: string,
    amount: nat,
    fee: Option<nat>,
    id: Option<nat>,
    memo: Option<seq<Icp.uint8>>,
    notify: Option<bool>,
    other: Option<seq<Icp.uint8>>)

  /** The one call a worker makes for one item, if any. */
  datatype Call =
    | UpdatePrice(tokenId: string, price: Js.Number)
    | Authorize(request: TransferRequest, binding: bool, receiver: string,
                expiry: nat, flag: Option<bool>, memo: Option<Icp.VoltMemo>)
    | Cancel(tokenId: string)
    | Transfer(request: TransferRequest)
    | NoCall

  /** How a worker invocation ends. */
  datatype Outcome =
    | Done                    // the call answered `ok`
    | ErrorLogged(message: string)  // the call answered `err`: logged, not thrown
    | Skipped                 // no call was needed
    | Threw                   // the awaited call rejected, so the worker throws

  /** Every worker in the commands: await the call, log an `err`, never rethrow it. */
  function Settle(call: Call, reply: Reply): (o: Outcome)
    ensures o.Threw? <==> !call.NoCall? && reply.Rejected?
    ensures o.ErrorLogged? <==> !call.NoCall? && reply.Answered? && reply.response.Err?
    ensures o.ErrorLogged? ==> reply == Answered(Err(o.message))
    ensures o.Skipped? <==> call.NoCall?
  {
    if call.NoCall? then Skipped
    else match reply
      case Rejected => Threw
      case Answered(Ok) => Done
      case Answered(Err(m)) => ErrorLogged(m)
  }

  /** The `doConcurrent` event a worker outcome produces for its task. */
  function EventFor<T>(d: Concurrent.Task<T>, o: Outcome): (e: Concurrent.Event<T>)
    ensures e.Fail? <==> o.Threw?
    ensures e != Concurrent.Tick && e.task == d
  {
    if o.Threw? then Concurrent.Fail(d) else Concurrent.Succeed(d)
  }

  /**
    A canister that answers `err` ends the item for good: it is counted as
    completed and is never queued again, whatever the call was.
  */
  lemma ApplicationErrorIsTerminal<T>(s: Concurrent.Job<T>, items: seq<T>, d: Concurrent.Task<T>,
                                      call: Call, message: string)
    requires Concurrent.Inv(s, items) && d in s.inflight
    ensures var r := Concurrent.Step(s, EventFor(d, Settle(call, Answered(Err(message)))));
      && r.completed == s.completed + [d] && |r.queue| <= |s.queue|
      && d !in r.queue && d !in r.inflight && multiset(r.completed)[d] == 1
  {
    var r := Concurrent.Step(s, Concurrent.Succeed(d));
    Concurrent.SucceedCompletesOnce(s, items, d);
    Concurrent.TaskHeldOnce(s, items, d);
    assert |r.queue| <= |s.queue|;
  }

  /**
    After an `err` reply, whatever the pool does next, the item stays
    completed exactly once and is neither queued nor awaited again.
  */
  lemma ErrorStaysCompleted<T>(s: Concurrent.Job<T>, items: seq<T>, d: Concurrent.Task<T>,
                               call: Call, message: string, later: seq<Concurrent.Event<T>>, t: Concurrent.Job<T>)
    requires Concurrent.Inv(s, items) && d in s.inflight
    requires Concurrent.Run(Concurrent.Step(s, EventFor(d, Settle(call, Answered(Err(message))))), later) == Some(t)
    ensures d in t.completed && multiset(t.completed)[d] == 1
    ensures d !in t.queue && d !in t.inflight
  {
    var r := Concurrent.Step(s, Concurrent.Succeed(d));
    Concurrent.StepPreservesInv(s, items, Concurrent.Succeed(d));
    Concurrent.RunPreservesInv(r, items, later);
    Concurrent.RunExtendsCompleted(r, later);
    assert d in r.completed;
    Concurrent.TaskHeldOnce(t, items, d);
  }

  /** A call that rejects puts its item back at the head of the queue to be retried. */
  lemma RejectedCallIsRetried<T>(s: Concurrent.Job<T>, items: seq<T>, d: Concurrent.Task<T>, call: Call)
    requires Concurrent.Inv(s, items) && d in s.inflight && !call.NoCall?
    ensures var r := Concurrent.Step(s, EventFor(d, Settle(call, Rejected)));
      r.queue == [d] + s.queue && r.completed == s.completed
  {
  }
}

=== FILE: concurrent.dfy ===
/**
  `doConcurrent` (utility/utility.js) as a transition system. The single
  JavaScript thread interleaves three kinds of events:
  - `Tick`: a `processNext()` call without a released slot, i.e. a
    `setTimeout` that fires (the initial call is folded into `Start`);
  - `Succeed(d)`: the awaited `fn(d)` resolved, `completed.push(d)` then
    `processNext(true)`;
  - `Fail(d)`: `fn(d)` threw, `thisSet.unshift(d)` then `waitNext(true)`.
  Wall-clock time is not modelled: a pending timer may fire at any moment.
*/
module Concurrent {
  import opened Wrappers

  /** An item tagged with its position in the input, as `set.map((a, i) => [a, i])`. */
  datatype Task<T> = Task(item: T, index: nat)

  /**
    The closure state of one run: the pending queue `thisSet`, the tasks
    whose `fn` call is awaited, the counter `ct`, the `completed` list, the
    slot limit `threads`, the number of armed timers, and whether `resolve`
    has been called.
  */
  datatype Job<T(==)> = Job(
    queue: seq<Task<T>>,
    inflight: multiset<Task<T>>,
    ct: int,
    completed: seq<Task<T>>,
    threads: int,
    timers: nat,
    resolved: bool)

  datatype Event<T> = Tick | Succeed(task: Task<T>) | Fail(task: Task<T>)

  function Tag<T>(items: seq<T>): (tagged: seq<Task<T>>)
    ensures |tagged| == |items|
    ensures forall i | 0 <= i < |items| :: tagged[i] == Task(items[i], i)
  {
    seq(|items|, i requires 0 <= i < |items| => Task(items[i], i))
  }

  /**
    The body of `processNext` once `ct` has been decremented for a released
    slot: dispatch the head of the queue if a slot is free (arming a timer
    when more work is left), or resolve when nothing is queued or running.
  */
  function ProcessNext<T(==)>(s: Job<T>): (r: Job<T>)
    ensures r.completed == s.completed && r.threads == s.threads
    ensures r.ct > s.ct ==> s.ct < s.threads && |s.queue| > 0
  {
    if s.ct < s.threads then
      if |s.queue| > 0 then
        var rest := s.queue[1..];
        s.(queue := rest,
           inflight := s.inflight + multiset{s.queue[0]},
           ct := s.ct + 1,
           timers := if |rest| > 0 then s.timers + 1 else s.timers)
      else s.(resolved := s.resolved || s.ct == 0)
    else s
  }

  /** `doConcurrent(fn, items, threads)` up to the return of its first `processNext()`. */
  function Start<T(==)>(items: seq<T>, threads: int): Job<T>
  {
    ProcessNext(Job(Tag(items), multiset{}, 0, [], threads, 0, false))
  }

  predicate Enabled<T(==)>(s: Job<T>, e: Event<T>)
  {
    match e
    case Tick => s.timers > 0
    case Succeed(d) => d in s.inflight
    case Fail(d) => d in s.inflight
  }

  function Step<T(==)>(s: Job<T>, e: Event<T>): Job<T>
    requires Enabled(s, e)
  {
    match e
    case Tick => ProcessNext(s.(timers := s.timers - 1))
    case Succeed(d) =>
      ProcessNext(s.(inflight := s.inflight - multiset{d},
                     completed := s.completed + [d],
                     ct := s.ct - 1))
    case Fail(d) =>
      s.(queue := [d] + s.queue,
         inflight := s.inflight - multiset{d},
         ct := s.ct - 1,
         timers := s.timers + 1)
  }

  /** The state after a sequence of events, or None if one was not enabled. */
  function Run<T(==)>(s: Job<T>, events: seq<Event<T>>): Option<Job<T>>
    decreases |events|
  {
    if |events| == 0 then Some(s)
    else if Enabled(s, events[0]) then Run(Step(s, events[0]), events[1..])
    else None
  }

  // ---------------------------------------------------------------------
  // Invariants

  /**
    The first `k` tagged tasks have been dispatched at least once; the rest
    wait, in input order, at the back of the queue, behind every retried
    task.
  */
  ghost predicate Frontier<T>(s: Job<T>, tagged: seq<Task<T>>, k: nat)
  {
    && k <= |tagged|
    && |tagged| - k <= |s.queue|
    && s.queue[|s.queue| - (|tagged| - k)..] == tagged[k..]
    && (forall i | 0 <= i < |s.queue| - (|tagged| - k) :: s.queue[i].index < k)
    && (forall t | t in s.inflight :: t.index < k)
    && (forall t | t in s.completed :: t.index < k)
  }

  /** Everything but progress: it also holds in the middle of an event. */
  ghost predicate Safe<T>(s: Job<T>, items: seq<T>)
  {
    && s.ct == |s.inflight|
    && (s.ct <= s.threads || s.ct == 0)
    && multiset(s.queue) + s.inflight + multiset(s.completed) == multiset(Tag(items))
    && (exists k :: Frontier(s, Tag(items), k))
    && (s.resolved ==> |s.queue| == 0 && s.ct == 0)
  }

  /** With at least one slot, an unresolved run always has a pending event. */
  ghost predicate Inv<T>(s: Job<T>, items: seq<T>)
  {
    && Safe(s, items)
    && (s.threads >= 1 ==> s.resolved || s.ct > 0 || s.timers > 0)
  }

  lemma ProcessNextEstablishesInv<T>(s: Job<T>, items: seq<T>)
    requires Safe(s, items)
    ensures Inv(ProcessNext(s), items)
  {
    var tagged := Tag(items);
    var k: nat :| Frontier(s, tagged, k);
    var r := ProcessNext(s);
    if s.ct < s.threads && |s.queue| > 0 {
      var k' := DispatchKeepsFrontier(s, tagged, k);
      DispatchKeepsCounts(s, tagged);
    } else {
      assert Frontier(r, tagged, k);
    }
  }

  /** Dispatching the head keeps the frontier shape, moving it past an untried task. */
  lemma DispatchKeepsCounts<T>(s: Job<T>, tagged: seq<Task<T>>)
    requires s.ct == |s.inflight| && s.ct < s.threads && |s.queue| > 0
    requires multiset(s.queue) + s.inflight + multiset(s.completed) == multiset(tagged)
    ensures var r := ProcessNext(s);
      && r.ct == |r.inflight| && r.ct <= r.threads
      && multiset(r.queue) + r.inflight + multiset(r.completed) == multiset(tagged)
  {
    var r := ProcessNext(s);
    var d := s.queue[0];
    assert s.queue == [d] + r.queue;
    assert multiset(s.queue) == multiset{d} + multiset(r.queue);
    assert r.inflight == s.inflight + multiset{d};
  }

  lemma DispatchKeepsFrontier<T>(s: Job<T>, tagged: seq<Task<T>>, k: nat) returns (k': nat)
    requires forall i | 0 <= i < |tagged| :: tagged[i].index == i
    requires Frontier(s, tagged, k) && s.ct < s.threads && |s.queue| > 0
    ensures Frontier(ProcessNext(s), tagged, k')
  {
    if |s.queue| > |tagged| - k {
      DispatchRetried(s, tagged, k);
      k' := k;
    } else {
      DispatchUntried(s, tagged, k);
      k' := k + 1;
    }
  }

  /** Dispatching a retried task keeps the frontier where it is. */
  lemma DispatchRetried<T>(s: Job<T>, tagged: seq<Task<T>>, k: nat)
    requires Frontier(s, tagged, k) && s.ct < s.threads && |s.queue| > |tagged| - k
    ensures Frontier(ProcessNext(s), tagged, k)
  {
    var r := ProcessNext(s);
    var d := s.queue[0];
    assert r.queue == s.queue[1..];
    var untried := |tagged| - k;
    assert r.queue[|r.queue| - untried..] == s.queue[|s.queue| - untried..];
    assert d.index < k;
    forall i | 0 <= i < |r.queue| - untried ensures r.queue[i].index < k {
      assert r.queue[i] == s.queue[i + 1];
    }
    forall t | t in r.inflight ensures t.index < k {
      if t != d {
        assert t in s.inflight;
      }
    }
  }

  /** Dispatching the next untried task moves the frontier past it. */
  lemma DispatchUntried<T>(s: Job<T>, tagged: seq<Task<T>>, k: nat)
    requires forall i | 0 <= i < |tagged| :: tagged[i].index == i
    requires Frontier(s, tagged, k) && s.ct < s.threads && 0 < |s.queue| <= |tagged| - k
    ensures Frontier(ProcessNext(s), tagged, k + 1)
  {
    var r := ProcessNext(s);
    var d := s.queue[0];
    assert r.queue == s.queue[1..];
    assert |s.queue| == |tagged| - k && k < |tagged|;
    assert s.queue == tagged[k..];
    assert d == tagged[k] && d.index == k;
    assert tagged[k..] == [tagged[k]] + tagged[k + 1..];
    assert r.queue == tagged[k + 1..];
    forall t | t in r.inflight ensures t.index < k + 1 {
      if t != d {
        assert t in s.inflight;
      }
    }
  }

  lemma StartEstablishesInv<T>(items: seq<T>, threads: int)
    ensures Inv(Start(items, threads), items)
  {
    var s := Job(Tag(items), multiset{}, 0, [], threads, 0, false);
    assert Frontier(s, Tag(items), 0);
    ProcessNextEstablishesInv(s, items);
  }

  lemma StepPreservesInv<T>(s: Job<T>, items: seq<T>, e: Event<T>)
    requires Inv(s, items) && Enabled(s, e)
    ensures Inv(Step(s, e), items)
  {
    match e
    case Tick => TickPreservesInv(s, items);
    case Succeed(d) => SucceedPreservesInv(s, items, d);
    case Fail(d) => FailPreservesInv(s, items, d);
  }

  lemma TickPreservesInv<T>(s: Job<T>, items: seq<T>)
    requires Inv(s, items) && s.timers > 0
    ensures Inv(Step(s, Tick), items)
  {
    var k: nat :| Frontier(s, Tag(items), k);
    var m := s.(timers := s.timers - 1);
    assert Frontier(m, Tag(items), k);
    ProcessNextEstablishesInv(m, items);
  }

  lemma SucceedPreservesInv<T>(s: Job<T>, items: seq<T>, d: Task<T>)
    requires Inv(s, items) && d in s.inflight
    ensures Inv(Step(s, Succeed(d)), items)
  {
    var tagged := Tag(items);
    var k: nat :| Frontier(s, tagged, k);
    var m := s.(inflight := s.inflight - multiset{d}, completed := s.completed + [d], ct := s.ct - 1);
    SucceedKeepsSafe(s, items, d, k);
    ProcessNextEstablishesInv(m, items);
  }

  lemma SucceedKeepsSafe<T>(s: Job<T>, items: seq<T>, d: Task<T>, k: nat)
    requires Safe(s, items) && d in s.inflight && Frontier(s, Tag(items), k)
    ensures Safe(s.(inflight := s.inflight - multiset{d}, completed := s.completed + [d], ct := s.ct - 1), items)
  {
    SucceedKeepsCounts(s, Tag(items), d);
    SucceedKeepsFrontier(s, Tag(items), d, k);
  }

  lemma SucceedKeepsCounts<T>(s: Job<T>, tagged: seq<Task<T>>, d: Task<T>)
    requires s.ct == |s.inflight| && d in s.inflight
    requires multiset(s.queue) + s.inflight + multiset(s.completed) == multiset(tagged)
    ensures var m := s.(inflight := s.inflight - multiset{d}, completed := s.completed + [d], ct := s.ct - 1);
      && m.ct == |m.inflight|
      && multiset(m.queue) + m.inflight + multiset(m.completed) == multiset(tagged)
  {
    var m := s.(inflight := s.inflight - multiset{d}, completed := s.completed + [d], ct := s.ct - 1);
    assert s.inflight == m.inflight + multiset{d};
    assert multiset(m.completed) == multiset(s.completed) + multiset{d};
  }

  lemma SucceedKeepsFrontier<T>(s: Job<T>, tagged: seq<Task<T>>, d: Task<T>, k: nat)
    requires Frontier(s, tagged, k) && d in s.inflight
    ensures Frontier(s.(inflight := s.inflight - multiset{d}, completed := s.completed + [d], ct := s.ct - 1),
                     tagged, k)
  {
    var m := s.(inflight := s.inflight - multiset{d}, completed := s.completed + [d], ct := s.ct - 1);
    forall t | t in m.completed ensures t.index < k {
      if t != d {
        assert t in s.completed;
      }
    }
  }

  lemma FailPreservesInv<T>(s: Job<T>, items: seq<T>, d: Task<T>)
    requires Inv(s, items) && d in s.inflight
    ensures Inv(Step(s, Fail(d)), items)
  {
    var tagged := Tag(items);
    var k: nat :| Frontier(s, tagged, k);
    FailKeepsFrontier(s, tagged, d, k);
    FailKeepsCounts(s, tagged, d);
  }

  lemma FailKeepsCounts<T>(s: Job<T>, tagged: seq<Task<T>>, d: Task<T>)
    requires s.ct == |s.inflight| && d in s.inflight
    requires multiset(s.queue) + s.inflight + multiset(s.completed) == multiset(tagged)
    ensures var r := s.(queue := [d] + s.queue, inflight := s.inflight - multiset{d},
                        ct := s.ct - 1, timers := s.timers + 1);
      && r.ct == |r.inflight|
      && multiset(r.queue) + r.inflight + multiset(r.completed) == multiset(tagged)
  {
    var r := s.(queue := [d] + s.queue, inflight := s.inflight - multiset{d},
                ct := s.ct - 1, timers := s.timers + 1);
    assert s.inflight == r.inflight + multiset{d};
    assert multiset(r.queue) == multiset{d} + multiset(s.queue);
  }

  lemma FailKeepsFrontier<T>(s: Job<T>, tagged: seq<Task<T>>, d: Task<T>, k: nat)
    requires Frontier(s, tagged, k) && d in s.inflight
    ensures Frontier(s.(queue := [d] + s.queue, inflight := s.inflight - multiset{d},
                        ct := s.ct - 1, timers := s.timers + 1), tagged, k)
  {
    var r := s.(queue := [d] + s.queue, inflight := s.inflight - multiset{d},
                ct := s.ct - 1, timers := s.timers + 1);
    var untried := |tagged| - k;
    assert r.queue[|r.queue| - untried..] == s.queue[|s.queue| - untried..];
    forall i | 0 <= i < |r.queue| - untried ensures r.queue[i].index < k {
      if i > 0 {
        assert r.queue[i] == s.queue[i - 1];
      }
    }
  }

  /** Every state a run can reach satisfies the invariant. */
  lemma {:induction false} RunPreservesInv<T>(s: Job<T>, items: seq<T>, events: seq<Event<T>>)
    requires Inv(s, items)
    requires Run(s, events).Some?
    ensures Inv(Run(s, events).value, items)
    decreases |events|
  {
    if |events| > 0 {
      StepPreservesInv(s, items, events[0]);
      RunPreservesInv(Step(s, events[0]), items, events[1..]);
    }
  }

  /**
    In every reachable state: `ct` counts the awaited calls and never
    exceeds `threads`; queue, in-flight and completed tasks together are
    exactly the tagged input; no task has completed twice; and a resolved
    run has an empty queue and no call in flight.
  */
  lemma ReachableInvariant<T>(s: Job<T>, items: seq<T>, threads: int, events: seq<Event<T>>)
    requires Run(Start(items, threads), events) == Some(s)
    ensures s.ct == |s.inflight|
    ensures 0 <= s.ct && (s.ct <= threads || s.ct == 0)
    ensures multiset(s.queue) + s.inflight + multiset(s.completed) == multiset(Tag(items))
    ensures forall t :: multiset(s.completed)[t] <= 1
    ensures s.resolved ==> |s.queue| == 0 && s.ct == 0
    ensures threads >= 1 && !s.resolved ==> s.ct > 0 || s.timers > 0
  {
    StartEstablishesInv(items, threads);
    RunPreservesInv(Start(items, threads), items, events);
    RunKeepsThreads(Start(items, threads), events);
    TagIsDistinct(items);
    forall t ensures multiset(s.completed)[t] <= 1 {
      assert multiset(s.completed)[t] <= multiset(Tag(items))[t];
    }
  }

  lemma {:induction false} RunKeepsThreads<T>(s: Job<T>, events: seq<Event<T>>)
    requires Run(s, events).Some?
    ensures Run(s, events).value.threads == s.threads
    decreases |events|
  {
    if |events| > 0 {
      RunKeepsThreads(Step(s, events[0]), events[1..]);
    }
  }

  /** Under the invariant a task is in at most one place, at most once. */
  lemma TaskHeldOnce<T>(s: Job<T>, items: seq<T>, t: Task<T>)
    requires Safe(s, items)
    ensures multiset(s.queue)[t] + s.inflight[t] + multiset(s.completed)[t] <= 1
  {
    TagIsDistinct(items);
    assert (multiset(s.queue) + s.inflight + multiset(s.completed))[t] == multiset(Tag(items))[t];
  }

  /** A run only ever appends to `completed`: what has completed stays completed. */
  lemma {:induction false} RunExtendsCompleted<T>(s: Job<T>, events: seq<Event<T>>)
    requires Run(s, events).Some?
    ensures s.completed <= Run(s, events).value.completed
    decreases |events|
  {
    if |events| > 0 {
      var r := Step(s, events[0]);
      assert s.completed <= r.completed;
      RunExtendsCompleted(r, events[1..]);
    }
  }

  /** Each tagged task occurs once in the tagged input. */
  lemma TagIsDistinct<T>(items: seq<T>)
    ensures forall t :: multiset(Tag(items))[t] <= 1
  {
    var tagged := Tag(items);
    forall t ensures multiset(tagged)[t] <= 1 {
      PrefixCount(tagged, t, |tagged|);
      assert tagged[..|tagged|] == tagged;
    }
  }

  lemma {:induction false} PrefixCount<T>(tagged: seq<Task<T>>, t: Task<T>, j: nat)
    requires forall i | 0 <= i < |tagged| :: tagged[i].index == i
    requires j <= |tagged|
    ensures multiset(tagged[..j])[t] <= 1
    ensures t.index >= j ==> multiset(tagged[..j])[t] == 0
  {
    if j > 0 {
      PrefixCount(tagged, t, j - 1);
      assert tagged[..j] == tagged[..j - 1] + [tagged[j - 1]];
    }
  }

  /**
    A resolved run has completed every input item exactly once, and
    nothing else.
  */
  lemma ResolvedCompletesEachItemOnce<T>(s: Job<T>, items: seq<T>, threads: int, events: seq<Event<T>>)
    requires Run(Start(items, threads), events) == Some(s) && s.resolved
    ensures multiset(s.completed) == multiset(Tag(items))
    ensures |s.completed| == |items|
    ensures forall i | 0 <= i < |items| :: multiset(s.completed)[Task(items[i], i)] == 1
  {
    ReachableInvariant(s, items, threads, events);
    assert s.inflight == multiset{};
    assert multiset(s.queue) == multiset{};
    TagIsDistinct(items);
    forall i | 0 <= i < |items| ensures multiset(s.completed)[Task(items[i], i)] == 1 {
      assert Tag(items)[i] == Task(items[i], i);
      assert Task(items[i], i) in multiset(Tag(items));
    }
    assert |multiset(s.completed)| == |multiset(Tag(items))|;
  }

  /** An empty input resolves on the first call when there is a slot. */
  lemma EmptyInputResolvesAtOnce<T>(threads: int)
    requires threads >= 1
    ensures Start<T>([], threads).resolved
  {
  }

  /**
    A failed task goes back to the front of the queue, gives its slot back
    and arms a timer; nothing completes.
  */
  lemma FailRequeuesAtFront<T>(s: Job<T>, items: seq<T>, d: Task<T>)
    requires Inv(s, items) && Enabled(s, Fail(d))
    ensures var r := Step(s, Fail(d));
      && r.queue == [d] + s.queue
      && r.ct == s.ct - 1 && r.ct == |r.inflight|
      && r.timers > 0
      && r.completed == s.completed
  {
  }

  /**
    A succeeded task is appended to `completed` once and its slot is
    reused: either the queue head is dispatched or the count drops by one.
  */
  lemma SucceedCompletesOnce<T>(s: Job<T>, items: seq<T>, d: Task<T>)
    requires Inv(s, items) && Enabled(s, Succeed(d))
    ensures var r := Step(s, Succeed(d));
      && r.completed == s.completed + [d]
      && multiset(r.completed)[d] == 1
      && (if |s.queue| > 0 then r.ct == s.ct && r.queue == s.queue[1..] && s.queue[0] in r.inflight
          else r.ct == s.ct - 1)
  {
    var tagged := Tag(items);
    TagIsDistinct(items);
    assert multiset(s.completed)[d] + s.inflight[d] <= multiset(tagged)[d];
  }

  /**
    Whatever dispatches a task takes the head of the queue, so a retried
    task (put at the front by `Fail`) goes before every task never tried.
  */
  lemma DispatchTakesHead<T>(s: Job<T>, items: seq<T>, e: Event<T>)
    requires Inv(s, items) && Enabled(s, e) && !e.Fail?
    ensures var r := Step(s, e);
      |r.queue| < |s.queue| ==> r.queue == s.queue[1..] && s.queue[0] in r.inflight
  {
  }

  /** The scenario of one item that throws twice and then succeeds. */
  lemma RetriedItemCompletesOnce<T>(x: T)
    ensures var d := Task(x, 0);
      var r := Run(Start([x], 5), [Fail(d), Tick, Fail(d), Tick, Succeed(d)]);
      r.Some? && r.value.resolved && r.value.completed == [d]
  {
    var d := Task(x, 0);
    var s0 := Start([x], 5);
    assert Tag([x]) == [d];
    assert s0 == Job([], multiset{d}, 1, [], 5, 0, false);
    var s1 := Step(s0, Fail(d));
    assert s1 == Job([d], multiset{}, 0, [], 5, 1, false);
    var s2 := Step(s1, Tick);
    assert s2 == Job([], multiset{d}, 1, [], 5, 0, false);
    var s3 := Step(s2, Fail(d));
    var s4 := Step(s3, Tick);
    assert s4 == s2;
    var s5 := Step(s4, Succeed(d));
    assert s5 == Job([], multiset{}, 0, [d], 5, 0, true);
    var events := [Fail(d), Tick, Fail(d), Tick, Succeed(d)];
    assert Run(s5, events[5..]) == Some(s5);
    assert Run(s4, events[4..]) == Some(s5);
    assert Run(s3, events[3..]) == Some(s5);
    assert Run(s2, events[2..]) == Some(s5);
    assert Run(s1, events[1..]) == Some(s5);
  }
}

=== FILE: icp.dfy ===
/**
  The pure byte logic of utility/icp.js: hexadecimal text, big-endian
  encodings of numbers, 32-byte sub-accounts and the record behind the
  authorization memo.
*/
module Icp {
  import opened Wrappers
  import Js

  type uint8 = x: int | 0 <= x < 256

  /** What the modelled functions throw. */
  datatype Error =
    | NegativeNumber       // `numberToByteArray` on a negative input
    | InvalidArrayLength   // `Array(32 - n)` when the payload is longer than 32

  /** Canister ids of the trade, bioniq, volt and ckBTC services. */
  const TRADE_CID := "4hxwa-kiaaa-aaaak-qcfca-cai"
  const BIONIQ_CID := "w2nny-fyaaa-aaaak-qce3a-cai"
  const VOLT_CID := "aclt4-uaaaa-aaaak-qb4zq-cai"
  const CKBTC_CID := "mxzaz-hqaaa-aaaar-qaada-cai"

  const SUBACCOUNT_LENGTH: nat := 32

  /** A principal, seen through its raw bytes (`principal.toUint8Array()`). */
  datatype Principal = Principal(bytes: seq<uint8>)

  // ---------------------------------------------------------------------
  // Big-endian numbers

  /** The number a big-endian byte string denotes. */
  function BigEndianValue(bytes: seq<uint8>): nat
  {
    if |bytes| == 0 then 0
    else BigEndianValue(bytes[..|bytes| - 1]) * 256 + bytes[|bytes| - 1]
  }

  function Pow256(k: nat): (p: nat)
    ensures p > 0
  {
    if k == 0 then 1 else 256 * Pow256(k - 1)
  }

  /** The shortest big-endian encoding of `n` (empty for 0). */
  function MinimalBigEndian(n: nat): (r: seq<uint8>)
    ensures BigEndianValue(r) == n
    ensures n == 0 <==> |r| == 0
    ensures |r| > 0 ==> r[0] != 0
  {
    if n == 0 then []
    else
      var r := MinimalBigEndian(n / 256) + [n % 256];
      assert r[..|r| - 1] == MinimalBigEndian(n / 256);
      r
  }

  lemma {:induction false} MinimalBigEndianLength(n: nat, k: nat)
    requires n < Pow256(k)
    ensures |MinimalBigEndian(n)| <= k
  {
    if n > 0 {
      assert k > 0;
      assert n / 256 < Pow256(k - 1);
      MinimalBigEndianLength(n / 256, k - 1);
    }
  }

  function Zeros(k: nat): (z: seq<uint8>)
    ensures |z| == k && forall i | 0 <= i < k :: z[i] == 0
  {
    seq(k, _ => 0)
  }

  /** Leading zero bytes do not change the value of a big-endian string. */
  lemma {:induction false} LeadingZerosKeepValue(k: nat, bytes: seq<uint8>)
    ensures BigEndianValue(Zeros(k) + bytes) == BigEndianValue(bytes)
    decreases |bytes|, k
  {
    if |bytes| == 0 {
      assert Zeros(k) + bytes == Zeros(k);
      if k > 0 {
        assert Zeros(k)[..k - 1] == Zeros(k - 1);
        LeadingZerosKeepValue(k - 1, []);
        assert Zeros(k - 1) + [] == Zeros(k - 1);
      }
    } else {
      var init := bytes[..|bytes| - 1];
      assert (Zeros(k) + bytes)[..|Zeros(k) + bytes| - 1] == Zeros(k) + init;
      LeadingZerosKeepValue(k, init);
    }
  }

  // ---------------------------------------------------------------------
  // numberToByteArray

  /**
    The loop of `numberToByteArray`: `num & 0xFF` and `num >>= 8` both go
    through ToInt32, and `>>` is an arithmetic (flooring) shift.
  */
  function Int32ShiftBytes(num: int): seq<uint8>
    decreases if num > 0 then num else 0
  {
    if num <= 0 then []
    else
      ShiftRightDecreases(num);
      Int32ShiftBytes(Js.ToInt32(num) / 256) + [Js.ToInt32(num) % 256]
  }

  lemma ShiftRightDecreases(num: int)
    requires num > 0
    ensures Js.ToInt32(num) / 256 < num
  {
    var r := Js.ToInt32(num);
    if r > 0 && num < Js.TWO_31 {
      assert r == num;
    }
  }

  /** Below 2^31 the 32-bit loop computes the minimal big-endian encoding. */
  lemma {:induction false} Int32ShiftBytesMinimal(n: int)
    requires 0 <= n < Js.TWO_31
    ensures Int32ShiftBytes(n) == MinimalBigEndian(n)
    decreases n
  {
    if n > 0 {
      assert Js.ToInt32(n) == n;
      Int32ShiftBytesMinimal(n / 256);
    }
  }

  lemma Int32ShiftBytesShort(n: int)
    ensures |Int32ShiftBytes(n)| <= 4
  {
    assert Pow256(3) == 0x100_0000 by {
      assert Pow256(1) == 256;
      assert Pow256(2) == 0x1_0000;
    }
    assert Pow256(4) == 0x1_0000_0000;
    if 0 < n < Js.TWO_31 {
      Int32ShiftBytesMinimal(n);
      MinimalBigEndianLength(n, 4);
    } else if n >= Js.TWO_31 {
      var m := Js.ToInt32(n) / 256;
      assert m < 0x80_0000;
      if m > 0 {
        Int32ShiftBytesMinimal(m);
        MinimalBigEndianLength(m, 3);
      }
    }
  }

  /** `numberToByteArray`: throws on negative input, `[0]` for zero. */
  function NumberToByteArray(num: int): (r: Result<seq<uint8>, Error>)
    ensures r.Failure? <==> num < 0
    ensures r.Failure? ==> r.error == NegativeNumber
    ensures r.Success? ==> 1 <= |r.value| <= 4
  {
    if num < 0 then Failure(NegativeNumber)
    else
      var bytes := Int32ShiftBytes(num);
      Int32ShiftBytesShort(num);
      Success(if |bytes| > 0 then bytes else [0])
  }

  lemma NumberToByteArrayOfZero()
    ensures NumberToByteArray(0) == Success([0])
  {
  }

  /**
    For 0 < n < 2^31 the result is the minimal big-endian encoding of n:
    its first byte is not zero and it decodes back to n.
  */
  lemma NumberToByteArrayIsMinimal(n: int)
    requires 0 < n < Js.TWO_31
    ensures NumberToByteArray(n) == Success(MinimalBigEndian(n))
    ensures NumberToByteArray(n).value[0] != 0
    ensures BigEndianValue(NumberToByteArray(n).value) == n
  {
    Int32ShiftBytesMinimal(n);
  }

  /** From 2^31 on the signed shift truncates: 2^31 encodes as `[0]`. */
  lemma NumberToByteArrayWrapsAtTwo31()
    ensures NumberToByteArray(Js.TWO_31) == Success([0])
    ensures BigEndianValue(NumberToByteArray(Js.TWO_31).value) != Js.TWO_31
  {
    assert Js.ToInt32(Js.TWO_31) == -Js.TWO_31;
    assert Int32ShiftBytes(-Js.TWO_31 / 256) == [];
    assert Int32ShiftBytes(Js.TWO_31) == [0];
    assert BigEndianValue([0]) == 0 by {
      assert [0 as uint8][..0] == [];
    }
  }

  // ---------------------------------------------------------------------
  // Sub-accounts

  /** `Array(32 - dec.length).fill(zero).concat(dec)`; a negative length throws. */
  function ZeroFill32<T>(zero: T, dec: seq<T>): (r: Result<seq<T>, Error>)
    ensures r.Failure? <==> |dec| > SUBACCOUNT_LENGTH
    ensures r.Failure? ==> r.error == InvalidArrayLength
    ensures r.Success? ==> |r.value| == SUBACCOUNT_LENGTH
    ensures r.Success? ==> r.value[SUBACCOUNT_LENGTH - |dec|..] == dec
    ensures r.Success? ==> forall i | 0 <= i < SUBACCOUNT_LENGTH - |dec| :: r.value[i] == zero
  {
    if |dec| > SUBACCOUNT_LENGTH then Failure(InvalidArrayLength)
    else Success(seq(SUBACCOUNT_LENGTH - |dec|, _ => zero) + dec)
  }

  /** `getSubaccountFromNumber`. */
  function SubaccountFromNumber(n: int): (r: Result<seq<uint8>, Error>)
    ensures r.Failure? <==> n < 0
    ensures r.Success? ==> |r.value| == SUBACCOUNT_LENGTH
  {
    match NumberToByteArray(n)
    case Failure(e) => Failure(e)
    case Success(dec) => ZeroFill32(0, dec)
  }

  /**
    Below 2^31 the sub-account is zeros followed by the minimal big-endian
    encoding, and it decodes back to the number.
  */
  lemma SubaccountFromNumberEncodes(n: int)
    requires 0 <= n < Js.TWO_31
    ensures SubaccountFromNumber(n).Success?
    ensures var dec := NumberToByteArray(n).value;
      SubaccountFromNumber(n).value == Zeros(SUBACCOUNT_LENGTH - |dec|) + dec
    ensures BigEndianValue(SubaccountFromNumber(n).value) == n
  {
    var dec := NumberToByteArray(n).value;
    var r := SubaccountFromNumber(n).value;
    assert r == Zeros(SUBACCOUNT_LENGTH - |dec|) + dec;
    LeadingZerosKeepValue(SUBACCOUNT_LENGTH - |dec|, dec);
    if n == 0 {
      assert BigEndianValue(dec) == 0 by {
        assert dec == [0];
        assert dec[..0] == [];
      }
    } else {
      NumberToByteArrayIsMinimal(n);
    }
  }

  /** 0 gives 32 zero bytes; 256 gives 30 zero bytes and then 1, 0. */
  lemma SubaccountFromNumberExamples()
    ensures SubaccountFromNumber(0) == Success(Zeros(32))
    ensures SubaccountFromNumber(256) == Success(Zeros(30) + [1, 0])
  {
    SubaccountOfZero();
    SubaccountOf256();
  }

  lemma SubaccountOfZero()
    ensures SubaccountFromNumber(0) == Success(Zeros(32))
  {
    assert NumberToByteArray(0) == Success([0]);
    var z := SubaccountFromNumber(0).value;
    assert z[31..] == [0];
    assert forall i | 0 <= i < 32 :: z[i] == 0 by {
      forall i | 0 <= i < 32 ensures z[i] == 0 {
        if i == 31 {
          assert z[31] == z[31..][0];
        }
      }
    }
    assert z == Zeros(32);
  }

  lemma SubaccountOf256()
    ensures SubaccountFromNumber(256) == Success(Zeros(30) + [1, 0])
  {
    NumberToByteArrayIsMinimal(256);
    assert MinimalBigEndian(1) == [1] by {
      assert MinimalBigEndian(0) == [];
    }
    assert MinimalBigEndian(256) == [1, 0];
    var w := SubaccountFromNumber(256).value;
    assert w[30..] == [1, 0];
    assert w[..30] == Zeros(30);
    assert w == w[..30] + w[30..];
  }

  // ---------------------------------------------------------------------
  // Hexadecimal text

  /** The lower-case digit `Number.prototype.toString(16)` prints for v < 16. */
  function HexDigit(v: nat): (c: char)
    requires v < 16
    ensures Js.IsHexDigit(c) && Js.HexDigitValue(c) == v
    ensures '0' <= c <= '9' || 'a' <= c <= 'f'
  {
    if v < 10 then ('0' as int + v) as char else ('a' as int + v - 10) as char
  }

  /** `toHexString`: two lower-case digits per byte, most significant first. */
  function ToHexString(bytes: seq<uint8>): (s: string)
    ensures |s| == 2 * |bytes|
    ensures forall i | 0 <= i < |s| :: '0' <= s[i] <= '9' || 'a' <= s[i] <= 'f'
  {
    if |bytes| == 0 then ""
    else [HexDigit(bytes[0] / 16), HexDigit(bytes[0] % 16)] + ToHexString(bytes[1..])
  }

  /** `hex.substr(0, 2) === '0x'` strips a lower-case prefix only. */
  function StripHexPrefix(hex: string): (h: string)
    ensures h == hex || (|hex| >= 2 && hex[..2] == "0x" && h == hex[2..])
  {
    if |hex| >= 2 && hex[..2] == "0x" then hex[2..] else hex
  }

  /** The loop of `fromHexString`: `parseInt(hex.substr(c, 2), 16)` for c = 0, 2, 4, ... */
  function HexPairs(h: string): (r: seq<Js.Number>)
    ensures |r| == (|h| + 1) / 2
  {
    if |h| == 0 then []
    else if |h| == 1 then [Js.ParseIntHex(h)]
    else [Js.ParseIntHex(h[..2])] + HexPairs(h[2..])
  }

  /** `fromHexString`; a malformed pair yields NaN, an odd tail parses alone. */
  function FromHexString(hex: string): (r: seq<Js.Number>)
    ensures |r| == (|StripHexPrefix(hex)| + 1) / 2
  {
    HexPairs(StripHexPrefix(hex))
  }

  /** Bytes as the Numbers a JavaScript array holds. */
  function AsNumbers(bytes: seq<uint8>): (r: seq<Js.Number>)
    ensures |r| == |bytes| && forall i | 0 <= i < |bytes| :: r[i] == Js.Num(bytes[i])
  {
    if |bytes| == 0 then [] else [Js.Num(bytes[0])] + AsNumbers(bytes[1..])
  }

  lemma {:induction false} HexPairsOfHexString(bytes: seq<uint8>)
    ensures HexPairs(ToHexString(bytes)) == AsNumbers(bytes)
    decreases |bytes|
  {
    if |bytes| > 0 {
      HexPairsOfFirstByte(bytes);
      HexPairsOfHexString(bytes[1..]);
    }
  }

  /** The first pair of `toHexString(b)` parses back to `b[0]`, and the rest is the rest. */
  lemma HexPairsOfFirstByte(bytes: seq<uint8>)
    requires |bytes| > 0
    ensures HexPairs(ToHexString(bytes)) == [Js.Num(bytes[0])] + HexPairs(ToHexString(bytes[1..]))
  {
    var b := bytes[0];
    var s := ToHexString(bytes);
    assert s == [HexDigit(b / 16), HexDigit(b % 16)] + ToHexString(bytes[1..]);
    assert s[2..] == ToHexString(bytes[1..]);
    ParseByteDigits(s[..2], b);
  }

  /** The two digits `toHexString` prints for a byte parse back to it. */
  lemma ParseByteDigits(pair: string, b: uint8)
    requires pair == [HexDigit(b / 16), HexDigit(b % 16)]
    ensures Js.ParseIntHex(pair) == Js.Num(b)
  {
    var h, l := b / 16, b % 16;
    assert h < 16 && 16 * h + l == b;
    assert Js.HexDigitValue(pair[0]) == h && Js.HexDigitValue(pair[1]) == l;
    Js.ParseTwoHexDigits(pair, b);
  }

  /** `fromHexString(toHexString(b))` gives back every byte of `b`. */
  lemma HexRoundTrip(bytes: seq<uint8>)
    ensures FromHexString(ToHexString(bytes)) == AsNumbers(bytes)
  {
    var s := ToHexString(bytes);
    if |s| >= 2 {
      assert s[1] != 'x';
      assert s[..2] != "0x";
    }
    assert StripHexPrefix(s) == s;
    HexPairsOfHexString(bytes);
  }

  /** `getSubaccountFromHex`. */
  function SubaccountFromHex(hex: string): (r: Result<seq<Js.Number>, Error>)
    ensures r.Failure? <==> |FromHexString(hex)| > SUBACCOUNT_LENGTH
    ensures r.Success? ==> |r.value| == SUBACCOUNT_LENGTH
    ensures r.Success? ==> r.value[SUBACCOUNT_LENGTH - |FromHexString(hex)|..] == FromHexString(hex)
    ensures r.Success? ==> forall i | 0 <= i < SUBACCOUNT_LENGTH - |FromHexString(hex)| :: r.value[i] == Js.Num(0)
  {
    ZeroFill32(Js.Num(0), FromHexString(hex))
  }

  /** `getHexFromPrincipal`. */
  function HexFromPrincipal(p: Principal): (hex: string)
    ensures FromHexString(hex) == AsNumbers(p.bytes)
  {
    HexRoundTrip(p.bytes);
    ToHexString(p.bytes)
  }

  /**
    `getSubaccountFromPrincipal`: 32 entries, zeros followed by the
    principal's raw bytes; a principal longer than 32 bytes throws.
  */
  function SubaccountFromPrincipal(p: Principal): (r: Result<seq<Js.Number>, Error>)
    ensures |p.bytes| > SUBACCOUNT_LENGTH <==> r.Failure?
    ensures r.Success? ==>
      r.value == AsNumbers(Zeros(SUBACCOUNT_LENGTH - |p.bytes|) + p.bytes)
  {
    var r := SubaccountFromHex(HexFromPrincipal(p));
    PaddedPrincipal(p, r);
    r
  }

  lemma PaddedPrincipal(p: Principal, r: Result<seq<Js.Number>, Error>)
    requires r == SubaccountFromHex(HexFromPrincipal(p))
    ensures r.Success? ==> r.value == AsNumbers(Zeros(SUBACCOUNT_LENGTH - |p.bytes|) + p.bytes)
  {
    assert FromHexString(HexFromPrincipal(p)) == AsNumbers(p.bytes);
    ZeroFillNumbers(p.bytes);
  }

  lemma ZeroFillNumbers(bytes: seq<uint8>)
    ensures var r := ZeroFill32(Js.Num(0), AsNumbers(bytes));
      r.Success? ==> r.value == AsNumbers(Zeros(SUBACCOUNT_LENGTH - |bytes|) + bytes)
  {
    var r := ZeroFill32(Js.Num(0), AsNumbers(bytes));
    if r.Success? {
      var k := SUBACCOUNT_LENGTH - |bytes|;
      var padded := Zeros(k) + bytes;
      var expected := AsNumbers(padded);
      forall i | 0 <= i < SUBACCOUNT_LENGTH
        ensures r.value[i] == expected[i]
      {
        if i < k {
          assert padded[i] == 0;
        } else {
          assert padded[i] == bytes[i - k];
          assert r.value[i] == r.value[k..][i - k];
        }
      }
    }
  }

  /** `to32bits`: `DataView.setUint32` writes ToUint32(num) big-endian. */
  function To32Bits(num: int): (r: seq<uint8>)
    ensures |r| == 4
    ensures BigEndianValue(r) == Js.ToUint32(num)
  {
    var u := Js.ToUint32(num);
    var q1 := u / 256;
    var q2 := q1 / 256;
    assert q2 < 0x1_0000;
    var r := [q2 / 256, q2 % 256, q1 % 256, u % 256];
    BigEndianOfFour(r);
    r
  }

  lemma BigEndianOfFour(b: seq<uint8>)
    requires |b| == 4
    ensures BigEndianValue(b) == ((b[0] as int * 256 + b[1]) * 256 + b[2]) * 256 + b[3]
  {
    assert BigEndianValue([b[0]]) == b[0] by {
      assert [b[0]][..0] == [];
    }
    assert BigEndianValue([b[0], b[1]]) == b[0] as int * 256 + b[1] by {
      assert [b[0], b[1]][..1] == [b[0]];
    }
    assert BigEndianValue(b[..3]) == (b[0] as int * 256 + b[1]) * 256 + b[2] by {
      assert b[..3][..2] == [b[0], b[1]];
    }
  }

  /** `to32bits` inverts the big-endian reading of any four bytes. */
  lemma To32BitsInverse(b: seq<uint8>)
    requires |b| == 4
    ensures To32Bits(BigEndianValue(b)) == b
  {
    BigEndianOfFour(b);
    var q2: int := b[0] as int * 256 + b[1];
    var q1: int := q2 * 256 + b[2];
    var u: int := q1 * 256 + b[3];
    assert BigEndianValue(b) == u;
    assert u / 256 == q1 && u % 256 == b[3];
    assert q1 / 256 == q2 && q1 % 256 == b[2];
    assert q2 / 256 == b[0] && q2 % 256 == b[1];
    assert Js.ToUint32(u) == u;
  }

  // ---------------------------------------------------------------------
  // The authorization memo

  /** The argument of `constructVoltMemo`; `None` is a property that is absent. */
  datatype MemoFields = MemoFields(
    kind: string,
    amount: Option<Js.Number>,
    tokenId: Option<string>,
    inscriptionId: Option<string>,
    offerId: Option<nat>)

  /** The Candid record `{authtype; amount; tokenid; offerid; inscriptionid}`. */
  datatype VoltMemo = VoltMemo(
    authtype: string,
    amount: Js.Number,
    tokenid: string,
    offerid: nat,
    inscriptionid: string)

  function GetOr<T>(o: Option<T>, default: T): T {
    match o
    case Some(v) => v
    case None => default
  }

  /** The record `constructVoltMemo` hands to the Candid encoder. */
  function VoltMemoRecord(data: MemoFields): (m: VoltMemo)
    ensures m.authtype == data.kind
    ensures data.amount.Some? ==> m.amount == data.amount.value
    ensures data.tokenId.Some? ==> m.tokenid == data.tokenId.value
    ensures data.inscriptionId.Some? ==> m.inscriptionid == data.inscriptionId.value
    ensures data.offerId.Some? ==> m.offerid == data.offerId.value
    ensures data.amount.None? ==> m.amount == Js.Num(0)
    ensures data.tokenId.None? ==> m.tokenid == ""
    ensures data.inscriptionId.None? ==> m.inscriptionid == ""
    ensures data.offerId.None? ==> m.offerid == 0
  {
    VoltMemo(data.kind, GetOr(data.amount, Js.Num(0)), GetOr(data.tokenId, ""),
             GetOr(data.offerId, 0), GetOr(data.inscriptionId, ""))
  }

  /** `constructVoltMemo`; the Candid encoder is a parameter. */
  function ConstructVoltMemo(encode: VoltMemo -> seq<uint8>, data: MemoFields): seq<uint8>
  {
    encode(VoltMemoRecord(data))
  }

  /** The fields with every absent one given its default explicitly. */
  function WithDefaults(data: MemoFields): (d: MemoFields)
    ensures d.amount.Some? && d.tokenId.Some? && d.inscriptionId.Some? && d.offerId.Some?
  {
    MemoFields(data.kind, Some(GetOr(data.amount, Js.Num(0))), Some(GetOr(data.tokenId, "")),
               Some(GetOr(data.inscriptionId, "")), Some(GetOr(data.offerId, 0)))
  }

  /**
    Omitting a field gives the same record, and so the same memo bytes, as
    passing `0`/`''`/`''`/`0` explicitly; and two field sets agreeing after
    defaulting encode identically.
  */
  lemma OmittedFieldsTakeDefaults(encode: VoltMemo -> seq<uint8>, data: MemoFields)
    ensures VoltMemoRecord(data) == VoltMemoRecord(WithDefaults(data))
    ensures ConstructVoltMemo(encode, data) == ConstructVoltMemo(encode, WithDefaults(data))
    ensures VoltMemoRecord(data).amount == Js.Num(0) <==> data.amount.None? || data.amount == Some(Js.Num(0))
  {
  }
}

=== FILE: inscriptions.dfy ===
/**
  The `inscriptions` commands of commands/inscriptions.js: `owned`, `list`,
  `delist` and `send`. Each one validates its options, narrows the wallet's
  inscriptions, asks for confirmation and hands the selection to
  `doConcurrent` with a worker that makes one canister call per item.
  The wallet's presence, the fetched inscriptions, the address lookup and
  the user's answer are parameters.
*/
module Inscriptions {
  import opened Wrappers
  import opened Seqs
  import Js
  import Icp
  import Utility
  import opened Canister
  import Concurrent

  /** One inscription held by the wallet, as the indexer reports it. */
  datatype Inscription = Inscription(
    id: string,
    tokenid: string,
    collection: string,
    listingType: string,
    listingAmount: int)

  /** Why a command stops before any call is made. */
  datatype Abort =
    | ConflictingFilters   // --listed with --unlisted, or --collection with --id
    | NoWallet             // no wallet in the configuration
    | BelowMinimum         // a listing amount under 500 sats
    | NothingFound         // the narrowed selection is empty
    | Declined             // the confirmation prompt was answered no
    | InvalidAddress       // the address does not match the P2WPKH pattern
    | UnknownAddress       // the indexer answered the address lookup with an error

  const MIN_LISTING_AMOUNT: int := 500
  /** How many calls every command's worker pool runs at once. */
  const THREADS: int := 5
  /** Listings are authorized for 180 days, in seconds. */
  const LISTING_EXPIRY: nat := 60 * 60 * 24 * 180

  predicate IsListed(x: Inscription) {
    x.listingType == "listed"
  }

  /** Not listed for sale: plain, last-sale or with an open offer. */
  predicate IsUnlisted(x: Inscription) {
    x.listingType in ["unlisted", "last", "offer"]
  }

  function InCollection(collection: string): Inscription -> bool {
    (x: Inscription) => x.collection == collection
  }

  function WithId(id: string): Inscription -> bool {
    (x: Inscription) => x.id == id
  }

  function PricedAt(price: Js.Number): Inscription -> bool {
    (x: Inscription) => Js.LooseEquals(x.listingAmount, price)
  }

  /** Does `x` pass the `--collection` / `--id` narrowing, collection first? */
  predicate MatchesTarget(collection: string, id: string, x: Inscription) {
    if collection != "" then x.collection == collection
    else id == "" || x.id == id
  }

  /** The `--collection` / `--id` branch shared by the commands (an empty option is absent). */
  function Narrow(collection: string, id: string, candidates: seq<Inscription>): (r: seq<Inscription>)
    ensures forall x :: x in r <==> x in candidates && MatchesTarget(collection, id, x)
    ensures IsSubsequence(r, candidates)
  {
    if collection != "" then Filter(candidates, InCollection(collection))
    else if id != "" then Filter(candidates, WithId(id))
    else
      SubsequenceReflexive(candidates);
      candidates
  }

  /** The narrowed selection is empty exactly when no candidate is on target. */
  lemma NarrowIsEmpty(collection: string, id: string, candidates: seq<Inscription>)
    ensures |Narrow(collection, id, candidates)| == 0 <==>
      forall x | x in candidates :: !MatchesTarget(collection, id, x)
  {
    var r := Narrow(collection, id, candidates);
    if |r| > 0 {
      assert r[0] in r;
    }
  }

  /** An empty selection stops the command; otherwise the user must confirm it. */
  function Confirm(selection: seq<Inscription>, confirmed: bool): (r: Result<seq<Inscription>, Abort>)
    ensures r.Success? <==> |selection| > 0 && confirmed
    ensures r.Success? ==> r.value == selection
    ensures r.Failure? ==> r.error == if |selection| == 0 then NothingFound else Declined
  {
    if |selection| == 0 then Failure(NothingFound)
    else if !confirmed then Failure(Declined)
    else Success(selection)
  }

  /** `doConcurrent(worker, selection, 5, …)`: the pool every command starts on its selection. */
  function Dispatch(selection: seq<Inscription>): Concurrent.Job<Inscription> {
    Concurrent.Start(selection, THREADS)
  }

  /**
    A command's pool never runs more than five calls at once, and when it
    resolves the worker has finished for every selected inscription
    exactly once.
  */
  lemma DispatchHandlesEachOnce(selection: seq<Inscription>, events: seq<Concurrent.Event<Inscription>>,
                                s: Concurrent.Job<Inscription>)
    requires Concurrent.Run(Dispatch(selection), events) == Some(s)
    ensures 0 <= s.ct <= THREADS
    ensures s.resolved ==> |s.completed| == |selection|
    ensures s.resolved ==> forall i | 0 <= i < |selection| ::
      multiset(s.completed)[Concurrent.Task(selection[i], i)] == 1
  {
    Concurrent.ReachableInvariant(s, selection, THREADS, events);
    if s.resolved {
      Concurrent.ResolvedCompletesEachItemOnce(s, selection, THREADS, events);
    }
  }

  /** The calls a worker makes for a selection, one per inscription, in order. */
  function CallsFor(selection: seq<Inscription>, worker: Inscription -> Call): (calls: seq<Call>)
    ensures |calls| == |selection|
    ensures forall i | 0 <= i < |selection| :: calls[i] == worker(selection[i])
  {
    seq(|selection|, i requires 0 <= i < |selection| => worker(selection[i]))
  }

  // ---------------------------------------------------------------------
  // owned

  /** `inscriptions owned [--listed | --unlisted]`: the inscriptions it displays. */
  function Owned(listedOnly: bool, unlistedOnly: bool, hasWallet: bool, owned: seq<Inscription>)
    : (r: Result<seq<Inscription>, Abort>)
    ensures r == Failure(ConflictingFilters) <==> listedOnly && unlistedOnly
    ensures r == Failure(NoWallet) <==> !(listedOnly && unlistedOnly) && !hasWallet
    ensures r.Success? <==> !(listedOnly && unlistedOnly) && hasWallet
    ensures r.Success? ==> IsSubsequence(r.value, owned)
    ensures r.Success? ==> forall x :: x in r.value <==>
      x in owned && (listedOnly ==> IsListed(x)) && (unlistedOnly ==> IsUnlisted(x))
  {
    if listedOnly && unlistedOnly then Failure(ConflictingFilters)
    else if !hasWallet then Failure(NoWallet)
    else if listedOnly then Success(Filter(owned, IsListed))
    else if unlistedOnly then Success(Filter(owned, IsUnlisted))
    else
      SubsequenceReflexive(owned);
      Success(owned)
  }

  // ---------------------------------------------------------------------
  // list

  /** The options of `inscriptions list`; an absent `--collection` or `--id` is `""`. */
  datatype ListOptions = ListOptions(updateListed: bool, collection: string, id: string, amount: Js.Number)

  /** `list` rejects an amount under 500 and `--collection` with `--id`. */
  predicate ListOptionsPass(o: ListOptions) {
    !(o.amount.Num? && o.amount.value < MIN_LISTING_AMOUNT) && !(o.collection != "" && o.id != "")
  }

  /** Would `list` hand `x` to its worker? Unlisted ones, or all with `--updateListed`, on target. */
  predicate ListWanted(o: ListOptions, x: Inscription) {
    (o.updateListed || IsUnlisted(x)) && MatchesTarget(o.collection, o.id, x)
  }

  /**
    `inscriptions list`: the inscriptions handed to `doConcurrent`.
    `amount < 500` is false for NaN, so a non-numeric amount is not
    rejected.
  */
  function ListSelection(o: ListOptions, hasWallet: bool, owned: seq<Inscription>, confirmed: bool)
    : (r: Result<seq<Inscription>, Abort>)
    ensures r == Failure(BelowMinimum) <==> o.amount.Num? && o.amount.value < MIN_LISTING_AMOUNT
    ensures r == Failure(ConflictingFilters) <==>
      !(o.amount.Num? && o.amount.value < MIN_LISTING_AMOUNT) && o.collection != "" && o.id != ""
    ensures r == Failure(NoWallet) <==> ListOptionsPass(o) && !hasWallet
    ensures r == Failure(NothingFound) <==> (ListOptionsPass(o) && hasWallet &&
      forall x | x in owned :: !ListWanted(o, x))
    ensures r == Failure(Declined) <==> (ListOptionsPass(o) && hasWallet && !confirmed &&
      exists x :: x in owned && ListWanted(o, x))
    ensures r.Success? <==> (ListOptionsPass(o) && hasWallet && confirmed &&
      exists x :: x in owned && ListWanted(o, x))
    ensures r.Success? ==> hasWallet && confirmed && |r.value| > 0
    ensures r.Success? ==> IsSubsequence(r.value, owned)
    ensures r.Success? ==> forall x :: x in r.value <==>
      x in owned && (o.updateListed || IsUnlisted(x)) && MatchesTarget(o.collection, o.id, x)
  {
    if o.amount.Num? && o.amount.value < MIN_LISTING_AMOUNT then Failure(BelowMinimum)
    else if o.collection != "" && o.id != "" then Failure(ConflictingFilters)
    else if !hasWallet then Failure(NoWallet)
    else
      var candidates := if o.updateListed then owned else Filter(owned, IsUnlisted);
      SubsequenceReflexive(owned);
      var narrowed := Narrow(o.collection, o.id, candidates);
      SubsequenceTransitive(narrowed, candidates, owned);
      NarrowIsEmpty(o.collection, o.id, candidates);
      Confirm(narrowed, confirmed)
  }

  /**
    The list worker's call for one inscription: a listed one whose price
    differs is repriced, a listed one at the price needs nothing, and any
    other is authorized to the trade canister for 180 days with a
    `createListing` memo. `decode` is the token-index decoder.
  */
  function ListCall(x: Inscription, amount: Js.Number, voltAddress: string, decode: string -> nat): (c: Call)
    ensures c.NoCall? <==> IsListed(x) && Js.LooseEquals(x.listingAmount, amount)
    ensures c.UpdatePrice? <==> IsListed(x) && !Js.LooseEquals(x.listingAmount, amount)
    ensures c.UpdatePrice? ==> c.tokenId == x.tokenid && c.price == amount
    ensures c.Authorize? <==> !IsListed(x)
    ensures c.Authorize? ==>
      && c.request == TransferRequest("ext", Icp.BIONIQ_CID, voltAddress, 1, Some(0),
                                      Some(decode(x.tokenid)), None, None, None)
      && c.binding && c.receiver == Icp.TRADE_CID && c.expiry == LISTING_EXPIRY
      && c.flag == Some(true)
      && c.memo == Some(Icp.VoltMemo("createListing", amount, "", 0, ""))
  {
    if IsListed(x) then
      if !Js.LooseEquals(x.listingAmount, amount) then UpdatePrice(x.tokenid, amount) else NoCall
    else
      var memo := Icp.VoltMemoRecord(Icp.MemoFields("createListing", Some(amount), None, None, None));
      Authorize(TransferRequest("ext", Icp.BIONIQ_CID, voltAddress, 1, Some(0),
                                Some(decode(x.tokenid)), None, None, None),
                true, Icp.TRADE_CID, LISTING_EXPIRY, Some(true), Some(memo))
  }

  /**
    Listing again at the same price is a no-op: once an inscription is
    listed at `amount`, the list worker makes no call for it.
  */
  lemma RelistingAtSamePriceIsNoOp(x: Inscription, amount: int, voltAddress: string, decode: string -> nat)
    ensures ListCall(x.(listingType := "listed", listingAmount := amount), Js.Num(amount), voltAddress, decode)
         == NoCall
  {
  }

  /**
    A non-numeric amount passes the minimum check, and then every listed
    inscription is repriced with it, since NaN equals no price.
  */
  lemma NaNAmountIsNotRejected(o: ListOptions, owned: seq<Inscription>, x: Inscription,
                               voltAddress: string, decode: string -> nat)
    requires o.amount == Js.NaN && o.collection == "" && o.id == "" && o.updateListed
    requires x in owned && IsListed(x)
    ensures ListSelection(o, true, owned, true) == Success(owned)
    ensures ListCall(x, o.amount, voltAddress, decode) == UpdatePrice(x.tokenid, Js.NaN)
  {
  }

  // ---------------------------------------------------------------------
  // delist

  /**
    The options of `inscriptions delist`. `price` is `Some` when a
    non-empty `--price` string was given, holding its numeric value: any
    non-empty string is truthy, `"0"` included.
  */
  datatype DelistOptions = DelistOptions(collection: string, id: string, price: Option<Js.Number>)

  /** Would `delist` cancel `x`? Listed, at the given price if any, and on target. */
  predicate DelistWanted(o: DelistOptions, x: Inscription) {
    && IsListed(x)
    && (o.price.Some? ==> Js.LooseEquals(x.listingAmount, o.price.value))
    && MatchesTarget(o.collection, o.id, x)
  }

  /** `inscriptions delist`: the listed inscriptions handed to `doConcurrent`. */
  function DelistSelection(o: DelistOptions, hasWallet: bool, owned: seq<Inscription>, confirmed: bool)
    : (r: Result<seq<Inscription>, Abort>)
    ensures r == Failure(ConflictingFilters) <==> o.collection != "" && o.id != ""
    ensures r == Failure(NoWallet) <==> !(o.collection != "" && o.id != "") && !hasWallet
    ensures r == Failure(NothingFound) <==> (!(o.collection != "" && o.id != "") && hasWallet &&
      forall x | x in owned :: !DelistWanted(o, x))
    ensures r == Failure(Declined) <==> (!(o.collection != "" && o.id != "") && hasWallet && !confirmed &&
      exists x :: x in owned && DelistWanted(o, x))
    ensures r.Success? <==> (!(o.collection != "" && o.id != "") && hasWallet && confirmed &&
      exists x :: x in owned && DelistWanted(o, x))
    ensures r.Success? ==> confirmed && |r.value| > 0 && IsSubsequence(r.value, owned)
    ensures r.Success? ==> forall x :: x in r.value <==>
      && x in owned && IsListed(x)
      && (o.price.Some? ==> Js.LooseEquals(x.listingAmount, o.price.value))
      && MatchesTarget(o.collection, o.id, x)
  {
    if o.collection != "" && o.id != "" then Failure(ConflictingFilters)
    else if !hasWallet then Failure(NoWallet)
    else
      var listed := Filter(owned, IsListed);
      var priced := if o.price.Some? then Filter(listed, PricedAt(o.price.value)) else listed;
      SubsequenceReflexive(listed);
      SubsequenceTransitive(priced, listed, owned);
      var narrowed := Narrow(o.collection, o.id, priced);
      SubsequenceTransitive(narrowed, priced, owned);
      NarrowIsEmpty(o.collection, o.id, priced);
      Confirm(narrowed, confirmed)
  }

  /** The delist worker cancels the listing of the inscription's token. */
  function DelistCall(x: Inscription): (c: Call)
    ensures c.Cancel? && c.tokenId == x.tokenid
  {
    Cancel(x.tokenid)
  }

  /** What the delist worker cancels for a selection. */
  function DelistCalls(selection: seq<Inscription>): seq<Call> {
    CallsFor(selection, DelistCall)
  }

  /**
    `delist` cancels one listing per selected inscription, by its token,
    and a token's listing is cancelled exactly when an owned, listed
    inscription with that token passes the price and target filters.
  */
  lemma DelistCancelsSelectedListings(o: DelistOptions, hasWallet: bool, owned: seq<Inscription>, confirmed: bool)
    ensures var r := DelistSelection(o, hasWallet, owned, confirmed);
      r.Success? ==>
        && |DelistCalls(r.value)| == |r.value|
        && (forall i | 0 <= i < |r.value| :: DelistCalls(r.value)[i] == Cancel(r.value[i].tokenid))
        && (forall t :: Cancel(t) in DelistCalls(r.value) <==>
              exists x :: && x in owned && x.tokenid == t && IsListed(x)
                          && (o.price.Some? ==> Js.LooseEquals(x.listingAmount, o.price.value))
                          && MatchesTarget(o.collection, o.id, x))
  {
    var r := DelistSelection(o, hasWallet, owned, confirmed);
    if r.Success? {
      CancelsCoverWanted(o, owned, r.value, DelistCalls(r.value));
    }
  }

  /** Cancelling by token, one per item, over exactly the wanted inscriptions. */
  lemma CancelsCoverWanted(o: DelistOptions, owned: seq<Inscription>, items: seq<Inscription>, calls: seq<Call>)
    requires forall x :: x in items <==> x in owned && DelistWanted(o, x)
    requires |calls| == |items| && forall i | 0 <= i < |items| :: calls[i] == Cancel(items[i].tokenid)
    ensures forall t :: Cancel(t) in calls <==> exists x :: x in owned && x.tokenid == t && DelistWanted(o, x)
  {
    forall t ensures Cancel(t) in calls <==> exists x :: x in owned && x.tokenid == t && DelistWanted(o, x) {
      if Cancel(t) in calls {
        var i :| 0 <= i < |calls| && calls[i] == Cancel(t);
        assert items[i] in items;
      }
      if exists x :: x in owned && x.tokenid == t && DelistWanted(o, x) {
        var x :| x in owned && x.tokenid == t && DelistWanted(o, x);
        var i :| 0 <= i < |items| && items[i] == x;
        assert calls[i] == Cancel(t);
      }
    }
  }

  /**
    `--price 0` is not "no price filter": it selects only the listings
    whose amount is 0, so a wallet with no such listing finds nothing.
  */
  lemma DelistZeroPriceStillFilters(owned: seq<Inscription>)
    requires forall x | x in owned :: x.listingAmount != 0
    ensures DelistSelection(DelistOptions("", "", Some(Js.Num(0))), true, owned, true) == Failure(NothingFound)
  {
  }

  // ---------------------------------------------------------------------
  // send

  datatype SendOptions = SendOptions(address: string, collection: string, id: string)

  /** Where the inscriptions go and which ones. */
  datatype SendPlan = SendPlan(to: string, items: seq<Inscription>)

  /** Would `send` transfer `x`? Unlisted and on target. */
  predicate SendWanted(o: SendOptions, x: Inscription) {
    IsUnlisted(x) && MatchesTarget(o.collection, o.id, x)
  }

  /**
    `inscriptions send`. `resolved` is the indexer's answer to the address
    lookup: `None` when it reports an error, else the address to send to.
    Unlike `list` and `delist`, giving both `--collection` and `--id` is
    not rejected: the collection wins.
  */
  function SendSelection(o: SendOptions, hasWallet: bool, resolved: Option<string>,
                         owned: seq<Inscription>, confirmed: bool): (r: Result<SendPlan, Abort>)
    ensures r == Failure(InvalidAddress) <==> !Utility.P2wpkhPattern(o.address)
    ensures r == Failure(NoWallet) <==> Utility.P2wpkhPattern(o.address) && !hasWallet
    ensures r == Failure(UnknownAddress) <==> Utility.P2wpkhPattern(o.address) && hasWallet && resolved.None?
    ensures r == Failure(NothingFound) <==> (Utility.P2wpkhPattern(o.address) && hasWallet && resolved.Some? &&
      forall x | x in owned :: !SendWanted(o, x))
    ensures r == Failure(Declined) <==> (Utility.P2wpkhPattern(o.address) && hasWallet && resolved.Some? &&
      !confirmed && exists x :: x in owned && SendWanted(o, x))
    ensures r.Success? <==> (Utility.P2wpkhPattern(o.address) && hasWallet && resolved.Some? &&
      confirmed && exists x :: x in owned && SendWanted(o, x))
    ensures r.Success? ==> confirmed && Some(r.value.to) == resolved
    ensures r.Success? ==> |r.value.items| > 0 && IsSubsequence(r.value.items, owned)
    ensures r.Success? ==> forall x :: x in r.value.items <==>
      x in owned && IsUnlisted(x) && MatchesTarget(o.collection, o.id, x)
  {
    if !Utility.P2wpkhPattern(o.address) then Failure(InvalidAddress)
    else if !hasWallet then Failure(NoWallet)
    else if resolved.None? then Failure(UnknownAddress)
    else
      var unlisted := Filter(owned, IsUnlisted);
      var narrowed := Narrow(o.collection, o.id, unlisted);
      SubsequenceTransitive(narrowed, unlisted, owned);
      NarrowIsEmpty(o.collection, o.id, unlisted);
      match Confirm(narrowed, confirmed)
      case Success(items) => Success(SendPlan(resolved.value, items))
      case Failure(e) => Failure(e)
  }

  /** The send worker transfers one token of the inscription to the resolved address. */
  function SendCall(x: Inscription, to: string, decode: string -> nat): (c: Call)
    ensures c.Transfer?
    ensures c.request == TransferRequest("ext", Icp.BIONIQ_CID, to, 1, Some(0),
                                         Some(decode(x.tokenid)), None, None, None)
  {
    Transfer(TransferRequest("ext", Icp.BIONIQ_CID, to, 1, Some(0), Some(decode(x.tokenid)), None, None, None))
  }

  /**
    `send` makes one `ext` transfer of amount 1 per selected inscription,
    of that inscription's token index, to the address the indexer
    resolved (not the typed one), and an owned inscription is transferred
    exactly when it is unlisted and passes the target filter.
  */
  lemma SendTransfersSelection(o: SendOptions, hasWallet: bool, resolved: Option<string>,
                               owned: seq<Inscription>, confirmed: bool, decode: string -> nat)
    ensures var r := SendSelection(o, hasWallet, resolved, owned, confirmed);
      r.Success? ==>
        var calls := CallsFor(r.value.items, x => SendCall(x, r.value.to, decode));
        && |calls| == |r.value.items|
        && (forall i | 0 <= i < |calls| ::
              calls[i] == Transfer(TransferRequest("ext", Icp.BIONIQ_CID, resolved.value, 1, Some(0),
                                                   Some(decode(r.value.items[i].tokenid)), None, None, None)))
        && (forall x | x in owned && IsUnlisted(x) && MatchesTarget(o.collection, o.id, x) ::
              SendCall(x, resolved.value, decode) in calls)
        && (forall c | c in calls :: exists x :: && x in owned && IsUnlisted(x) && MatchesTarget(o.collection, o.id, x)
                                                  && c == SendCall(x, resolved.value, decode))
  {
    var r := SendSelection(o, hasWallet, resolved, owned, confirmed);
    if r.Success? {
      var calls := CallsFor(r.value.items, x => SendCall(x, r.value.to, decode));
      TransfersCoverWanted(o, owned, r.value.items, resolved.value, decode, calls);
    }
  }

  /** One transfer per item, over exactly the wanted inscriptions. */
  lemma TransfersCoverWanted(o: SendOptions, owned: seq<Inscription>, items: seq<Inscription>,
                             to: string, decode: string -> nat, calls: seq<Call>)
    requires forall x :: x in items <==> x in owned && SendWanted(o, x)
    requires |calls| == |items| && forall i | 0 <= i < |items| :: calls[i] == SendCall(items[i], to, decode)
    ensures forall x | x in owned && SendWanted(o, x) :: SendCall(x, to, decode) in calls
    ensures forall c | c in calls :: exists x :: x in owned && SendWanted(o, x) && c == SendCall(x, to, decode)
  {
    forall x | x in owned && SendWanted(o, x) ensures SendCall(x, to, decode) in calls {
      var i :| 0 <= i < |items| && items[i] == x;
      assert calls[i] == SendCall(x, to, decode);
    }
    forall c | c in calls ensures exists x :: x in owned && SendWanted(o, x) && c == SendCall(x, to, decode) {
      var i :| 0 <= i < |calls| && calls[i] == c;
      assert items[i] in items;
    }
  }

  /**
    `send` ignores `--id` when `--collection` is given, where `list` and
    `delist` refuse the combination.
  */
  lemma SendCollectionOverridesId(o: SendOptions, hasWallet: bool, resolved: Option<string>,
                                  owned: seq<Inscription>, confirmed: bool, amount: Js.Number)
    requires o.collection != "" && o.id != ""
    ensures SendSelection(o, hasWallet, resolved, owned, confirmed)
         == SendSelection(o.(id := ""), hasWallet, resolved, owned, confirmed)
    ensures amount.Num? && amount.value >= MIN_LISTING_AMOUNT ==>
      ListSelection(ListOptions(false, o.collection, o.id, amount), hasWallet, owned, confirmed)
      == Failure(ConflictingFilters)
    ensures DelistSelection(DelistOptions(o.collection, o.id, None), hasWallet, owned, confirmed)
         == Failure(ConflictingFilters)
  {
  }
}

=== FILE: js.dfy ===
/**
  The few JavaScript language semantics the modelled code leans on: integer
  Numbers (with NaN), the 32-bit conversions behind the bitwise operators,
  truthiness and `parseInt(s, 16)`.
*/
module Js {

  /** A JavaScript Number restricted to the integral values this code handles, plus NaN. */
  datatype Number = Num(value: int) | NaN

  const TWO_31: int := 0x8000_0000
  const TWO_32: int := 0x1_0000_0000

  /** A Number is truthy unless it is 0 or NaN. */
  predicate Truthy(n: Number) {
    n.Num? && n.value != 0
  }

  /** `a == b` between an integer-valued Number and a Number (NaN equals nothing). */
  predicate LooseEquals(a: int, b: Number) {
    b.Num? && b.value == a
  }

  /** ToInt32: the conversion `&`, `|` and `>>` apply to their operands. */
  function ToInt32(x: int): (r: int)
    ensures -TWO_31 <= r < TWO_31
    ensures -TWO_31 <= x < TWO_31 ==> r == x
  {
    var m := x % TWO_32;
    if m >= TWO_31 then m - TWO_32 else m
  }

  /** ToUint32: the conversion `DataView.setUint32` applies to its value. */
  function ToUint32(x: int): (r: int)
    ensures 0 <= r < TWO_32
    ensures 0 <= x < TWO_32 ==> r == x
  {
    x % TWO_32
  }

  /** The WhiteSpace and LineTerminator code points that `parseInt` skips. */
  predicate IsWhitespace(c: char) {
    || c == '\t' || c == '\n' || c == '\U{000B}' || c == '\U{000C}' || c == '\r'
    || c == ' ' || c == '\U{00A0}' || c == '\U{1680}'
    || ('\U{2000}' <= c <= '\U{200A}')
    || c == '\U{2028}' || c == '\U{2029}' || c == '\U{202F}' || c == '\U{205F}'
    || c == '\U{3000}' || c == '\U{FEFF}'
  }

  predicate IsHexDigit(c: char) {
    ('0' <= c <= '9') || ('a' <= c <= 'f') || ('A' <= c <= 'F')
  }

  function HexDigitValue(c: char): (v: nat)
    requires IsHexDigit(c)
    ensures v < 16
  {
    if '0' <= c <= '9' then c as int - '0' as int
    else if 'a' <= c <= 'f' then c as int - 'a' as int + 10
    else c as int - 'A' as int + 10
  }

  /** The number of hexadecimal digits `s` starts with. */
  function LeadingHexDigits(s: string): (n: nat)
    ensures n <= |s|
    ensures forall i | 0 <= i < n :: IsHexDigit(s[i])
    ensures n < |s| ==> !IsHexDigit(s[n])
  {
    if |s| == 0 || !IsHexDigit(s[0]) then 0 else 1 + LeadingHexDigits(s[1..])
  }

  /** The run of hexadecimal digits `s` starts with. */
  function LeadingHexRun(s: string): (d: string)
    ensures d == s[..LeadingHexDigits(s)]
    ensures forall i | 0 <= i < |d| :: IsHexDigit(d[i])
  {
    var k := LeadingHexDigits(s);
    assert forall i | 0 <= i < k :: s[..k][i] == s[i];
    s[..k]
  }

  /** The value of a string of hexadecimal digits, most significant first. */
  function HexValue(digits: string): nat
    requires forall i | 0 <= i < |digits| :: IsHexDigit(digits[i])
  {
    if |digits| == 0 then 0
    else HexValue(digits[..|digits| - 1]) * 16 + HexDigitValue(digits[|digits| - 1])
  }

  function TrimStart(s: string): (r: string)
    ensures |r| <= |s| && r == s[|s| - |r|..]
    ensures |r| > 0 ==> !IsWhitespace(r[0])
    ensures |s| > 0 && !IsWhitespace(s[0]) ==> r == s
  {
    if |s| > 0 && IsWhitespace(s[0]) then TrimStart(s[1..]) else s
  }

  /** An optional sign is dropped; the caller reads the sign from the first character. */
  function SkipSign(t: string): (u: string)
    ensures |t| > 0 && t[0] != '-' && t[0] != '+' ==> u == t
    ensures |t| == 0 ==> u == t
  {
    if |t| > 0 && (t[0] == '-' || t[0] == '+') then t[1..] else t
  }

  /** An optional `0x` or `0X` prefix is dropped. */
  function SkipHexPrefix(u: string): (b: string)
    ensures !(|u| >= 2 && u[0] == '0' && (u[1] == 'x' || u[1] == 'X')) ==> b == u
  {
    if |u| >= 2 && u[0] == '0' && (u[1] == 'x' || u[1] == 'X') then u[2..] else u
  }

  lemma HexDigitIsNotWhitespace(c: char)
    requires IsHexDigit(c)
    ensures !IsWhitespace(c)
  {
  }

  /**
    `parseInt(s, 16)`: skip leading white space, take an optional sign and an
    optional `0x`/`0X` prefix, then read the longest run of hexadecimal digits;
    NaN when that run is empty. `-0` is represented as `Num(0)`, and the value
    is exact (the source only ever passes one or two characters).
  */
  function ParseIntHex(s: string): (n: Number)
    ensures |s| == 0 ==> n == NaN
    ensures |s| > 0 && !IsHexDigit(s[0]) && !IsWhitespace(s[0]) && s[0] != '-' && s[0] != '+' ==> n == NaN
    ensures && |s| > 0 && IsHexDigit(s[0])
            && !(|s| >= 2 && s[0] == '0' && (s[1] == 'x' || s[1] == 'X'))
            ==> n == Num(HexValue(LeadingHexRun(s)))
  {
    if |s| > 0 && IsHexDigit(s[0]) then
      HexDigitIsNotWhitespace(s[0]);
      ParseIntHexTrimmed(TrimStart(s))
    else ParseIntHexTrimmed(TrimStart(s))
  }

  /** `parseInt(s, 16)` once the leading white space is gone. */
  function ParseIntHexTrimmed(t: string): (n: Number)
    ensures |t| == 0 ==> n == NaN
    ensures |t| > 0 && !IsHexDigit(t[0]) && t[0] != '-' && t[0] != '+' ==> n == NaN
    ensures && |t| > 0 && IsHexDigit(t[0])
            && !(|t| >= 2 && t[0] == '0' && (t[1] == 'x' || t[1] == 'X'))
            ==> n == Num(HexValue(LeadingHexRun(t)))
  {
    var negative := |t| > 0 && t[0] == '-';
    ParseIntHexOf(negative, LeadingHexRun(SkipHexPrefix(SkipSign(t))))
  }

  function ParseIntHexOf(negative: bool, digits: string): Number
    requires forall i | 0 <= i < |digits| :: IsHexDigit(digits[i])
  {
    if |digits| == 0 then NaN
    else
      var magnitude: int := HexValue(digits);
      Num(if negative then -magnitude else magnitude)
  }

  /** Unary minus on a Number; NaN stays NaN. */
  function Negate(n: Number): Number {
    if n.NaN? then NaN else Num(-n.value)
  }

  /** Leading white space is skipped, one character at a time. */
  lemma ParseIntHexSkipsWhitespace(s: string)
    requires |s| > 0 && IsWhitespace(s[0])
    ensures ParseIntHex(s) == ParseIntHex(s[1..])
  {
    assert TrimStart(s) == TrimStart(s[1..]);
  }

  /**
    A sign applies to what follows it when that starts the number at once;
    a sign followed by nothing, white space or another sign gives NaN.
  */
  lemma ParseIntHexSign(s: string)
    requires |s| > 0 && (s[0] == '-' || s[0] == '+')
    ensures var r := s[1..];
      if |r| > 0 && !IsWhitespace(r[0]) && r[0] != '-' && r[0] != '+' then
        ParseIntHex(s) == if s[0] == '-' then Negate(ParseIntHex(r)) else ParseIntHex(r)
      else ParseIntHex(s) == NaN
  {
    var r := s[1..];
    if |r| > 0 && !IsWhitespace(r[0]) && r[0] != '-' && r[0] != '+' {
      SignThenNumber(s);
    } else {
      SignThenNothing(s);
    }
  }

  lemma SignThenNumber(s: string)
    requires |s| > 1 && (s[0] == '-' || s[0] == '+')
    requires !IsWhitespace(s[1]) && s[1] != '-' && s[1] != '+'
    ensures ParseIntHex(s) == if s[0] == '-' then Negate(ParseIntHex(s[1..])) else ParseIntHex(s[1..])
  {
    SignedIsTrimmed(s);
    UnsignedIsTrimmed(s[1..]);
  }

  lemma SignThenNothing(s: string)
    requires |s| > 0 && (s[0] == '-' || s[0] == '+')
    requires |s| == 1 || IsWhitespace(s[1]) || s[1] == '-' || s[1] == '+'
    ensures ParseIntHex(s) == NaN
  {
    SignedIsTrimmed(s);
    var r := s[1..];
    if |r| > 0 {
      assert !IsHexDigit(r[0]);
      assert SkipHexPrefix(r) == r;
      assert LeadingHexDigits(r) == 0;
    }
  }

  lemma SignedIsTrimmed(s: string)
    requires |s| > 0 && (s[0] == '-' || s[0] == '+')
    ensures ParseIntHex(s) == ParseIntHexOf(s[0] == '-', LeadingHexRun(SkipHexPrefix(s[1..])))
  {
    assert !IsWhitespace(s[0]);
    assert TrimStart(s) == s;
  }

  lemma UnsignedIsTrimmed(r: string)
    requires |r| > 0 && !IsWhitespace(r[0]) && r[0] != '-' && r[0] != '+'
    ensures ParseIntHex(r) == ParseIntHexOf(false, LeadingHexRun(SkipHexPrefix(r)))
  {
    assert TrimStart(r) == r;
  }

  /** After a `0x` or `0X` prefix the digits that follow are read; none gives NaN. */
  lemma ParseIntHexPrefix(s: string)
    requires |s| >= 2 && s[0] == '0' && (s[1] == 'x' || s[1] == 'X')
    ensures LeadingHexDigits(s[2..]) == 0 ==> ParseIntHex(s) == NaN
    ensures LeadingHexDigits(s[2..]) > 0 ==> ParseIntHex(s) == Num(HexValue(LeadingHexRun(s[2..])))
  {
    HexDigitIsNotWhitespace(s[0]);
    assert TrimStart(s) == s;
    assert SkipSign(s) == s;
    assert SkipHexPrefix(s) == s[2..];
  }

  /** Two hexadecimal digits parse to their two-digit value. */
  lemma ParseTwoHexDigits(s: string, v: int)
    requires |s| == 2 && IsHexDigit(s[0]) && IsHexDigit(s[1])
    requires v == 16 * HexDigitValue(s[0]) + HexDigitValue(s[1])
    ensures ParseIntHex(s) == Num(v)
  {
    TwoHexDigitsValue(s);
    DigitFirst(s, v);
  }

  lemma DigitFirst(s: string, v: int)
    requires |s| == 2 && IsHexDigit(s[0]) && IsHexDigit(s[1])
    requires v == HexValue(LeadingHexRun(s))
    ensures ParseIntHex(s) == Num(v)
  {
  }

  lemma TwoHexDigitsValue(s: string)
    requires |s| == 2 && IsHexDigit(s[0]) && IsHexDigit(s[1])
    ensures HexValue(LeadingHexRun(s)) == 16 * HexDigitValue(s[0]) + HexDigitValue(s[1])
  {
    assert LeadingHexDigits(s[1..]) == 1;
    assert LeadingHexDigits(s) == 2;
    assert LeadingHexRun(s) == s;
    assert HexValue(s[..1]) == HexDigitValue(s[0]) by {
      assert s[..1][..0] == [];
    }
  }
}

=== FILE: seqs.dfy ===
/** Order-preserving subsequences and filtering, shared by every selection step. */
module Seqs {

  /** `xs` can be obtained from `ys` by deleting elements, keeping the order of the rest. */
  predicate IsSubsequence<T(==)>(xs: seq<T>, ys: seq<T>)
    decreases |ys|
  {
    || |xs| == 0
    || (&& |ys| > 0
        && ((xs[0] == ys[0] && IsSubsequence(xs[1..], ys[1..])) || IsSubsequence(xs, ys[1..])))
  }

  /** `Array.prototype.filter`. */
  function Filter<T(==,!new)>(xs: seq<T>, p: T -> bool): (r: seq<T>)
    ensures forall x :: x in r <==> x in xs && p(x)
    ensures IsSubsequence(r, xs)
    ensures |r| <= |xs|
  {
    if |xs| == 0 then []
    else if p(xs[0]) then
      assert ([xs[0]] + Filter(xs[1..], p))[1..] == Filter(xs[1..], p);
      [xs[0]] + Filter(xs[1..], p)
    else Filter(xs[1..], p)
  }

  lemma {:induction false} SubsequenceMembers<T>(xs: seq<T>, ys: seq<T>)
    requires IsSubsequence(xs, ys)
    ensures forall x | x in xs :: x in ys
    decreases |ys|
  {
    if |xs| > 0 {
      if xs[0] == ys[0] && IsSubsequence(xs[1..], ys[1..]) {
        SubsequenceMembers(xs[1..], ys[1..]);
        forall x | x in xs ensures x in ys {
          if x != xs[0] {
            assert x in xs[1..];
          }
        }
      } else {
        SubsequenceMembers(xs, ys[1..]);
      }
    }
  }

  lemma {:induction false} SubsequenceLength<T>(xs: seq<T>, ys: seq<T>)
    requires IsSubsequence(xs, ys)
    ensures |xs| <= |ys|
    decreases |ys|
  {
    if |xs| > 0 {
      if xs[0] == ys[0] && IsSubsequence(xs[1..], ys[1..]) {
        SubsequenceLength(xs[1..], ys[1..]);
      } else {
        SubsequenceLength(xs, ys[1..]);
      }
    }
  }

  lemma {:induction false} SubsequenceTransitive<T>(xs: seq<T>, ys: seq<T>, zs: seq<T>)
    requires IsSubsequence(xs, ys) && IsSubsequence(ys, zs)
    ensures IsSubsequence(xs, zs)
    decreases |zs|
  {
    if |xs| > 0 {
      SubsequenceLength(ys, zs);
      if ys[0] == zs[0] && IsSubsequence(ys[1..], zs[1..]) {
        if xs[0] == ys[0] && IsSubsequence(xs[1..], ys[1..]) {
          SubsequenceTransitive(xs[1..], ys[1..], zs[1..]);
        } else {
          SubsequenceTransitive(xs, ys[1..], zs[1..]);
        }
      } else {
        SubsequenceTransitive(xs, ys, zs[1..]);
      }
    }
  }

  lemma {:induction false} SubsequenceReflexive<T>(xs: seq<T>)
    ensures IsSubsequence(xs, xs)
    decreases |xs|
  {
    if |xs| > 0 {
      SubsequenceReflexive(xs[1..]);
    }
  }

  lemma {:induction false} SubsequenceOfPrefix<T>(xs: seq<T>, k: nat)
    requires k <= |xs|
    ensures IsSubsequence(xs[..k], xs)
    decreases |xs|
  {
    if k > 0 {
      assert xs[..k][1..] == xs[1..][..k - 1];
      SubsequenceOfPrefix(xs[1..], k - 1);
    }
  }

  /** Extending the larger sequence at the front keeps the relation. */
  lemma {:induction false} SubsequenceExtendFront<T>(xs: seq<T>, front: seq<T>, ys: seq<T>)
    requires IsSubsequence(xs, ys)
    ensures IsSubsequence(xs, front + ys)
    decreases |front|
  {
    if |front| == 0 {
      assert front + ys == ys;
    } else if |xs| > 0 {
      assert (front + ys)[1..] == front[1..] + ys;
      SubsequenceExtendFront(xs, front[1..], ys);
    }
  }

  lemma {:induction false} SubsequenceConcat<T>(xs1: seq<T>, ys1: seq<T>, xs2: seq<T>, ys2: seq<T>)
    requires IsSubsequence(xs1, ys1) && IsSubsequence(xs2, ys2)
    ensures IsSubsequence(xs1 + xs2, ys1 + ys2)
    decreases |ys1|
  {
    if |xs1| == 0 {
      assert xs1 + xs2 == xs2;
      SubsequenceExtendFront(xs2, ys1, ys2);
    } else {
      assert (ys1 + ys2)[1..] == ys1[1..] + ys2;
      if xs1[0] == ys1[0] && IsSubsequence(xs1[1..], ys1[1..]) {
        assert (xs1 + xs2)[1..] == xs1[1..] + xs2;
        SubsequenceConcat(xs1[1..], ys1[1..], xs2, ys2);
      } else {
        SubsequenceConcat(xs1, ys1[1..], xs2, ys2);
      }
    }
  }

  /** Extending the larger sequence at the back keeps the relation. */
  lemma SubsequenceExtendBack<T>(xs: seq<T>, ys: seq<T>, back: seq<T>)
    requires IsSubsequence(xs, ys)
    ensures IsSubsequence(xs, ys + back)
  {
    SubsequenceConcat(xs, ys, [], back);
    assert xs + [] == xs;
  }

  /** A filter that every element passes changes nothing. */
  lemma {:induction false} FilterKeepsAll<T(!new)>(xs: seq<T>, p: T -> bool)
    requires forall i | 0 <= i < |xs| :: p(xs[i])
    ensures Filter(xs, p) == xs
  {
    if |xs| > 0 {
      FilterKeepsAll(xs[1..], p);
      assert [xs[0]] + xs[1..] == xs;
    }
  }

  /** Filtering distributes over concatenation. */
  lemma {:induction false} FilterConcat<T(!new)>(xs: seq<T>, ys: seq<T>, p: T -> bool)
    ensures Filter(xs + ys, p) == Filter(xs, p) + Filter(ys, p)
  {
    if |xs| == 0 {
      assert xs + ys == ys;
    } else {
      assert (xs + ys)[0] == xs[0];
      assert (xs + ys)[1..] == xs[1..] + ys;
      FilterConcat(xs[1..], ys, p);
    }
  }
}

=== FILE: sweep.dfy ===
/**
  The `sweep` command of commands/sweep.js: check the limits, select the
  cheapest unsold listings of a collection, drop the ones the wallet
  already holds, estimate the cost, ask for confirmation and buy each
  selected listing with one authorization to the trade canister.
  The collection lookup, the pages of listings, the wallet, the owned
  ids, the balance and the user's answer are parameters.
*/
module Sweep {
  import opened Wrappers
  import opened Seqs
  import Js
  import Icp
  import opened Utility
  import opened Canister

  /**
    The options. A limit is `Some` when a non-empty string was given (a
    non-empty string is truthy), holding the string's numeric value.
  */
  datatype SweepOptions = SweepOptions(
    collection: string,
    price: Option<Js.Number>,
    number: Option<Js.Number>,
    max: Option<Js.Number>)

  /** The numeric limits handed to the listing selection; 0 is "no limit". */
  datatype Limits = Limits(maxPrice: int, maxNumber: int, maxTotal: int)

  datatype Abort =
    | MissingLimit      // none of --price, --number, --max
    | ZeroPrice         // --price that converts to 0
    | ZeroNumber        // --number that converts to 0
    | ZeroMax           // --max that converts to 0
    | InvalidCollection // the collection lookup answered nothing
    | NoWallet          // reading the missing wallet's address throws
    | NothingToBuy      // no listing left after dropping owned ones
    | Declined          // the confirmation prompt was answered no

  /** Every purchase pays this ledger fee on top of the price. */
  const FEE: nat := 10
  /** Purchase authorizations expire after an hour, in seconds. */
  const BUY_EXPIRY: nat := 3600

  predicate ConvertsToZero(o: Option<Js.Number>) {
    o == Some(Js.Num(0))
  }

  /** `Number(option) || 0`: absent and non-numeric options become 0. */
  function LimitOf(o: Option<Js.Number>): (v: int)
    ensures v != 0 <==> o.Some? && o.value.Num? && o.value.value != 0
    ensures v != 0 ==> o == Some(Js.Num(v))
  {
    match o
    case Some(Num(v)) => v
    case _ => 0
  }

  /** The option checks, in the order the command makes them. */
  function CheckOptions(o: SweepOptions): (r: Result<Limits, Abort>)
    ensures r == Failure(MissingLimit) <==> o.price.None? && o.number.None? && o.max.None?
    ensures r.Success? <==>
      && (o.price.Some? || o.number.Some? || o.max.Some?)
      && !ConvertsToZero(o.price) && !ConvertsToZero(o.number) && !ConvertsToZero(o.max)
    ensures r.Success? ==> r.value == Limits(LimitOf(o.price), LimitOf(o.number), LimitOf(o.max))
  {
    if o.price.None? && o.number.None? && o.max.None? then Failure(MissingLimit)
    else if ConvertsToZero(o.price) then Failure(ZeroPrice)
    else if ConvertsToZero(o.number) then Failure(ZeroNumber)
    else if ConvertsToZero(o.max) then Failure(ZeroMax)
    else Success(Limits(LimitOf(o.price), LimitOf(o.number), LimitOf(o.max)))
  }

  /**
    A non-numeric limit passes every check and then means "no limit": with
    `--price abc` alone every unsold listing of the collection is selected.
  */
  lemma NonNumericLimitIsNoLimit(o: SweepOptions, pages: seq<seq<Listing>>)
    requires o.price == Some(Js.NaN) && o.number.None? && o.max.None?
    requires WellPaged(pages)
    ensures CheckOptions(o) == Success(Limits(0, 0, 0))
    ensures InscriptionsToBuy(0, 0, 0, pages, 1) == Filter(PagesFrom(pages, 1), Unsold)
  {
    PriceCapSelectsEveryPricedUnsold(0, pages, 1);
  }

  function NotOwned(ownedIds: seq<string>): Listing -> bool {
    (x: Listing) => x.id !in ownedIds
  }

  /** `inscriptions.filter(i => !ownedInscriptionsIds.includes(i.id))`. */
  function ExcludeOwned(xs: seq<Listing>, ownedIds: seq<string>): (r: seq<Listing>)
    ensures forall x :: x in r <==> x in xs && x.id !in ownedIds
    ensures IsSubsequence(r, xs)
  {
    Filter(xs, NotOwned(ownedIds))
  }

  /** `reduce((sum, i) => sum + i.price + 10, 0)`, from `acc`. */
  function FoldTotal(xs: seq<Listing>, acc: int): (total: int)
    ensures total == acc + SumPrices(xs) + FEE * |xs|
  {
    if |xs| == 0 then acc else FoldTotal(xs[1..], acc + xs[0].price + FEE)
  }

  /** The cost shown to the user: every price plus a fee per purchase. */
  function EstimatedTotal(xs: seq<Listing>): (total: int)
    ensures total == SumPrices(xs) + FEE * |xs|
  {
    FoldTotal(xs, 0)
  }

  /**
    The purchase of one listing: `user_authorize` of `price` ckBTC with a
    fee of 10 to the trade canister for an hour, with a `buyListing` memo
    naming the token.
  */
  function BuyCall(x: Listing, buyer: string): (c: Call)
    ensures c.Authorize?
    ensures c.request == TransferRequest("icrc1", Icp.CKBTC_CID, buyer, x.price, Some(FEE), None, None, None, None)
    ensures c.binding && c.receiver == Icp.TRADE_CID && c.expiry == BUY_EXPIRY && c.flag == Some(true)
    ensures c.memo == Some(Icp.VoltMemo("buyListing", Js.Num(0), x.tokenid, 0, ""))
  {
    var memo := Icp.VoltMemoRecord(Icp.MemoFields("buyListing", None, Some(x.tokenid), None, None));
    Authorize(TransferRequest("icrc1", Icp.CKBTC_CID, buyer, x.price, Some(FEE), None, None, None, None),
              true, Icp.TRADE_CID, BUY_EXPIRY, Some(true), Some(memo))
  }

  /** What the buy calls for `xs` authorize in total: amounts plus fees. */
  function CallsCost(xs: seq<Listing>, buyer: string): nat {
    if |xs| == 0 then 0
    else
      var c := BuyCall(xs[0], buyer);
      c.request.amount + c.request.fee.value + CallsCost(xs[1..], buyer)
  }

  /** The estimate shown to the user is exactly what the buy calls authorize. */
  lemma {:induction false} EstimateMatchesCalls(xs: seq<Listing>, buyer: string)
    ensures EstimatedTotal(xs) == CallsCost(xs, buyer)
  {
    if |xs| > 0 {
      EstimateMatchesCalls(xs[1..], buyer);
    }
  }

  lemma {:induction false} SubsequenceSumPrices(xs: seq<Listing>, ys: seq<Listing>)
    requires IsSubsequence(xs, ys)
    ensures SumPrices(xs) <= SumPrices(ys)
    decreases |ys|
  {
    if |xs| > 0 {
      if xs[0] == ys[0] && IsSubsequence(xs[1..], ys[1..]) {
        SubsequenceSumPrices(xs[1..], ys[1..]);
      } else {
        SubsequenceSumPrices(xs, ys[1..]);
      }
    }
  }

  /** Which confirmation the user is asked for. */
  datatype Prompt = InsufficientBalance | ConfirmPurchase

  /** What the sweep buys, what it told the user it costs, and how it asked. */
  datatype SweepPlan = SweepPlan(items: seq<Listing>, total: int, prompt: Prompt)

  /**
    What follows the selection: drop the listings the wallet holds, give
    up if none is left, estimate the cost, ask, and hand the rest to
    `doConcurrent`. The balance only picks the prompt.
  */
  function Conclude(candidates: seq<Listing>, hasWallet: bool, ownedIds: seq<string>,
                    balance: int, confirmed: bool): (r: Result<SweepPlan, Abort>)
    ensures !hasWallet ==> r == Failure(NoWallet)
    ensures hasWallet && ExcludeOwned(candidates, ownedIds) == [] ==> r == Failure(NothingToBuy)
    ensures hasWallet && ExcludeOwned(candidates, ownedIds) != [] && !confirmed ==> r == Failure(Declined)
    ensures r.Success? <==> hasWallet && confirmed && exists x :: x in candidates && x.id !in ownedIds
    ensures hasWallet && ExcludeOwned(candidates, ownedIds) != [] && confirmed ==>
      r.Success? && r.value.items == ExcludeOwned(candidates, ownedIds)
    ensures r.Success? ==> confirmed && hasWallet && |r.value.items| > 0
    ensures r.Success? ==> forall x :: x in r.value.items <==> x in candidates && x.id !in ownedIds
    ensures r.Success? ==> IsSubsequence(r.value.items, candidates)
    ensures r.Success? ==> |r.value.items| <= |candidates| && SumPrices(r.value.items) <= SumPrices(candidates)
    ensures r.Success? ==> r.value.total == SumPrices(r.value.items) + FEE * |r.value.items|
    ensures r.Success? ==> (r.value.prompt == InsufficientBalance <==> r.value.total > balance)
  {
    if !hasWallet then Failure(NoWallet)
    else
      var toBuy := ExcludeOwned(candidates, ownedIds);
      SubsequenceLength(toBuy, candidates);
      SubsequenceSumPrices(toBuy, candidates);
      assert |toBuy| > 0 ==> toBuy[0] in toBuy;
      if |toBuy| == 0 then Failure(NothingToBuy)
      else
        var total := EstimatedTotal(toBuy);
        var prompt := if total > balance then InsufficientBalance else ConfirmPurchase;
        if !confirmed then Failure(Declined)
        else Success(SweepPlan(toBuy, total, prompt))
  }

  /**
    `sweep`: the listings handed to `doConcurrent` for buying, selected by
    `getInscriptionsToBuy` as written. Each page is held to `--number` and
    `--max` on its own; across pages the count can overrun (see
    `Utility.NumberLimitOverrunAsWritten`), so no bound on the count or the
    total is promised here.
  */
  function SweepCommand(o: SweepOptions, collectionFound: bool, pages: seq<seq<Listing>>,
                        hasWallet: bool, ownedIds: seq<string>, balance: int, confirmed: bool)
    : (r: Result<SweepPlan, Abort>)
    ensures CheckOptions(o).Failure? ==> r == Failure(CheckOptions(o).error)
    ensures CheckOptions(o).Success? && !collectionFound ==> r == Failure(InvalidCollection)
    ensures CheckOptions(o).Success? && collectionFound ==>
      r == Conclude(InscriptionsToBuy(LimitOf(o.price), LimitOf(o.number), LimitOf(o.max), pages, 1),
                    hasWallet, ownedIds, balance, confirmed)
    ensures r.Success? ==> confirmed && hasWallet && |r.value.items| > 0
    ensures r.Success? ==> IsSubsequence(r.value.items, PagesFrom(pages, 1))
    ensures r.Success? ==> forall x | x in r.value.items ::
      && Unsold(x) && x.id !in ownedIds
      && (LimitOf(o.price) != 0 ==> x.price <= LimitOf(o.price))
    ensures r.Success? ==> r.value.total == SumPrices(r.value.items) + FEE * |r.value.items|
    ensures r.Success? ==> (r.value.prompt == InsufficientBalance <==> r.value.total > balance)
  {
    match CheckOptions(o)
    case Failure(e) => Failure(e)
    case Success(limits) =>
      if !collectionFound then Failure(InvalidCollection)
      else
        var candidates := InscriptionsToBuy(limits.maxPrice, limits.maxNumber, limits.maxTotal, pages, 1);
        var r := Conclude(candidates, hasWallet, ownedIds, balance, confirmed);
        if r.Success? then
          SubsequenceTransitive(r.value.items, candidates, PagesFrom(pages, 1));
          r
        else r
  }

  /**
    With `--price` alone the sweep buys every unsold listing of the
    collection at or under that price that the wallet does not hold yet,
    cheapest first.
  */
  lemma PriceOnlySweepBuysEveryPricedListing(o: SweepOptions, pages: seq<seq<Listing>>,
                                             ownedIds: seq<string>, balance: int)
    requires o.price.Some? && o.number.None? && o.max.None?
    requires WellPaged(pages)
    ensures var r := SweepCommand(o, true, pages, true, ownedIds, balance, true);
      var wanted := ExcludeOwned(PricedUnsold(LimitOf(o.price), PagesFrom(pages, 1)), ownedIds);
      && (CheckOptions(o).Success? && wanted != [] ==> r.Success? && r.value.items == wanted)
      && (CheckOptions(o).Success? && wanted == [] ==> r == Failure(NothingToBuy))
  {
    PriceCapSelectsEveryPricedUnsold(LimitOf(o.price), pages, 1);
  }

  /**
    `sweep --number 20` on a collection with a full first page of 20
    unsold listings and one more on the second page buys 21 of them.
  */
  lemma SweepNumberOverrunAsWritten(x: Listing, balance: int)
    requires Unsold(x)
    ensures var o := SweepOptions("c", None, Some(Js.Num(20)), None);
      var r := SweepCommand(o, true, [FullPage(x), [x]], true, [], balance, true);
      r.Success? && |r.value.items| == 21
  {
    var candidates := InscriptionsToBuy(0, 20, 0, [FullPage(x), [x]], 1);
    NumberLimitOverrunAsWritten(x);
    FilterKeepsAll(candidates, NotOwned([]));
  }

  /**
    The sweep with the selection corrected (`Utility.InscriptionsToBuyCapped`):
    the same checks and steps, and what it buys stays within `--number`
    listings and `--max` in prices across all pages.
  */
  function SweepCommandCapped(o: SweepOptions, collectionFound: bool, pages: seq<seq<Listing>>,
                              hasWallet: bool, ownedIds: seq<string>, balance: int, confirmed: bool)
    : (r: Result<SweepPlan, Abort>)
    ensures CheckOptions(o).Failure? ==> r == Failure(CheckOptions(o).error)
    ensures CheckOptions(o).Success? && !collectionFound ==> r == Failure(InvalidCollection)
    ensures r.Success? ==> confirmed && hasWallet && |r.value.items| > 0
    ensures r.Success? ==> IsSubsequence(r.value.items, PagesFrom(pages, 1))
    ensures r.Success? ==> forall x | x in r.value.items ::
      && Unsold(x) && x.id !in ownedIds
      && (LimitOf(o.price) != 0 ==> x.price <= LimitOf(o.price))
    ensures r.Success? && LimitOf(o.number) > 0 ==> |r.value.items| <= LimitOf(o.number)
    ensures r.Success? && LimitOf(o.max) > 0 ==> SumPrices(r.value.items) <= LimitOf(o.max)
    ensures r.Success? ==> r.value.total == SumPrices(r.value.items) + FEE * |r.value.items|
    ensures r.Success? ==> (r.value.prompt == InsufficientBalance <==> r.value.total > balance)
  {
    match CheckOptions(o)
    case Failure(e) => Failure(e)
    case Success(limits) =>
      if !collectionFound then Failure(InvalidCollection)
      else
        var candidates := InscriptionsToBuyCapped(limits.maxPrice, limits.maxNumber, limits.maxTotal, pages);
        var r := Conclude(candidates, hasWallet, ownedIds, balance, confirmed);
        if r.Success? then
          SubsequenceTransitive(r.value.items, candidates, PagesFrom(pages, 1));
          r
        else r
  }

  /**
    On a collection that fits on one page the corrected sweep and the
    sweep as written do the same, whenever `--number` is not negative.
  */
  lemma CappedSweepAgreesOnOnePage(o: SweepOptions, collectionFound: bool, pages: seq<seq<Listing>>,
                                   hasWallet: bool, ownedIds: seq<string>, balance: int, confirmed: bool)
    requires |pages| >= 1 && |pages[0]| != PAGE_LIMIT
    requires LimitOf(o.number) >= 0
    ensures SweepCommandCapped(o, collectionFound, pages, hasWallet, ownedIds, balance, confirmed)
         == SweepCommand(o, collectionFound, pages, hasWallet, ownedIds, balance, confirmed)
  {
    CappedAgreesOnOnePage(LimitOf(o.price), LimitOf(o.number), LimitOf(o.max), pages);
  }

  /**
    The balance never changes what is bought or whether the sweep goes
    ahead: two balances give the same outcome up to the prompt.
  */
  lemma BalanceOnlyChangesPrompt(o: SweepOptions, collectionFound: bool, pages: seq<seq<Listing>>,
                                 hasWallet: bool, ownedIds: seq<string>, b1: int, b2: int, confirmed: bool)
    ensures var r1 := SweepCommand(o, collectionFound, pages, hasWallet, ownedIds, b1, confirmed);
      var r2 := SweepCommand(o, collectionFound, pages, hasWallet, ownedIds, b2, confirmed);
      && (r1.Failure? <==> r2.Failure?)
      && (r1.Failure? ==> r1.error == r2.error)
      && (r1.Success? ==> r1.value.items == r2.value.items && r1.value.total == r2.value.total)
  {
  }
}

=== FILE: utility.dfy ===
/**
  The pure logic of utility/utility.js besides `doConcurrent`: paging
  through the floor listings of a collection (`getInscriptionsToBuy`) and
  recognising a P2WPKH address (`isValidP2wpkhAddress`). The HTTP fetch of
  each page is replaced by the sequence of pages the indexer would return.
*/
module Utility {
  import opened Wrappers
  import opened Seqs

  /** One result of the indexer's `inscriptions?status=listed&sort=price_asc` endpoint. */
  datatype Listing = Listing(id: string, tokenid: string, price: nat, psbt: string)

  /** The page size asked of the indexer; a shorter page is the last one. */
  const PAGE_LIMIT: nat := 20

  /** A listing without a pending PSBT can be bought. */
  predicate Unsold(x: Listing) {
    x.psbt == ""
  }

  function PriceAtMost(maxPrice: int): Listing -> bool {
    (x: Listing) => x.price <= maxPrice
  }

  /** The sum of the prices of a list of listings. */
  function SumPrices(xs: seq<Listing>): nat {
    if |xs| == 0 then 0 else xs[0].price + SumPrices(xs[1..])
  }

  lemma {:induction false} SumPricesConcat(xs: seq<Listing>, ys: seq<Listing>)
    ensures SumPrices(xs + ys) == SumPrices(xs) + SumPrices(ys)
  {
    if |xs| == 0 {
      assert xs + ys == ys;
    } else {
      assert (xs + ys)[1..] == xs[1..] + ys;
      SumPricesConcat(xs[1..], ys);
    }
  }

  lemma SumPricesPrefix(xs: seq<Listing>, k: nat)
    requires k <= |xs|
    ensures SumPrices(xs[..k]) <= SumPrices(xs)
  {
    SumPricesConcat(xs[..k], xs[k..]);
    assert xs[..k] + xs[k..] == xs;
  }

  /**
    The running-total filter of `getInscriptionsToBuy`: `total` grows by
    every price, kept or not, and an item is kept while the total is still
    within `maxTotal`. Returns the kept items and the final total.
    Prices are never negative, so once the total passes `maxTotal` nothing
    more is kept: the kept items are the longest prefix within the budget.
  */
  function KeepWithinTotal(xs: seq<Listing>, total: int, maxTotal: int): (r: (seq<Listing>, int))
    ensures r.1 == total + SumPrices(xs)
    ensures |r.0| <= |xs| && r.0 == xs[..|r.0|]
    ensures |r.0| > 0 ==> total + SumPrices(r.0) <= maxTotal
    ensures |r.0| < |xs| ==> total + SumPrices(xs[..|r.0| + 1]) > maxTotal
    ensures total > maxTotal ==> |r.0| == 0
  {
    if |xs| == 0 then ([], total)
    else
      var t := total + xs[0].price;
      var rest := KeepWithinTotal(xs[1..], t, maxTotal);
      if t <= maxTotal then
        var kept := [xs[0]] + rest.0;
        assert xs[..|kept|] == [xs[0]] + xs[1..][..|rest.0|];
        assert |kept| < |xs| ==> xs[..|kept| + 1] == [xs[0]] + xs[1..][..|rest.0| + 1];
        (kept, rest.1)
      else
        assert xs[..1] == [xs[0]];
        rest
  }

  /** Everything within the budget is kept. */
  lemma {:induction false} KeepWithinTotalKeepsAll(xs: seq<Listing>, total: int, maxTotal: int)
    requires total + SumPrices(xs) <= maxTotal
    ensures KeepWithinTotal(xs, total, maxTotal).0 == xs
  {
    if |xs| > 0 {
      KeepWithinTotalKeepsAll(xs[1..], total + xs[0].price, maxTotal);
      assert [xs[0]] + xs[1..] == xs;
    }
  }

  /** `xs.slice(0, end)`: a negative end counts from the back. */
  function SliceTo<T>(xs: seq<T>, end: int): (r: seq<T>)
    ensures |r| <= |xs| && r == xs[..|r|]
    ensures 0 <= end ==> |r| == if end < |xs| then end else |xs|
    ensures end < 0 ==> |r| == if |xs| + end > 0 then |xs| + end else 0
  {
    var stop := if end >= 0 then end else |xs| + end;
    if stop <= 0 then [] else if stop >= |xs| then xs else xs[..stop]
  }

  /** What one page contributes, and what the next request is given. */
  datatype PageResult = PageResult(kept: seq<Listing>, available: nat, nextTotal: int, lastPage: bool)

  /**
    One page of `getInscriptionsToBuy`. A limit of 0 is falsy and means
    "no limit". `available` counts the unsold listings before the price
    filter; `nextTotal` is `maxTotal` less the running total, which also
    counts the rejected listings.
  */
  function SelectFromPage(maxPrice: int, maxNumber: int, maxTotal: int, raw: seq<Listing>): (p: PageResult)
    ensures p.lastPage <==> |raw| != PAGE_LIMIT
  {
    var priced := PricedUnsold(maxPrice, raw);
    var within := KeepWithinTotal(priced, 0, maxTotal);
    var capped := if maxTotal != 0 then within.0 else priced;
    var nextTotal := if maxTotal != 0 then maxTotal - within.1 else maxTotal;
    var kept := if maxNumber != 0 && |capped| > maxNumber then SliceTo(capped, maxNumber) else capped;
    PageResult(kept, |Filter(raw, Unsold)|, nextTotal, |raw| != PAGE_LIMIT)
  }

  /**
    What one page's selection promises: a prefix of the page's unsold
    listings under the price cap, cut only where the count or the total
    cap binds; the next request's total is `maxTotal` less every price the
    running total saw.
  */
  lemma SelectFromPageSpec(maxPrice: int, maxNumber: int, maxTotal: int, raw: seq<Listing>)
    ensures var p := SelectFromPage(maxPrice, maxNumber, maxTotal, raw);
      var priced := PricedUnsold(maxPrice, raw);
      && p.available == |Filter(raw, Unsold)|
      && |p.kept| <= |priced| && p.kept == priced[..|p.kept|]
      && (maxNumber > 0 ==> |p.kept| <= maxNumber)
      && (maxTotal != 0 && |p.kept| > 0 ==> SumPrices(p.kept) <= maxTotal)
      && (|p.kept| < |priced| ==>
            || (maxNumber > 0 && |p.kept| == maxNumber)
            || maxNumber < 0
            || (maxTotal != 0 && SumPrices(priced[..|p.kept| + 1]) > maxTotal))
      && (maxNumber < 0 && maxTotal == 0 ==> |p.kept| == if |priced| + maxNumber > 0 then |priced| + maxNumber else 0)
      && (maxTotal != 0 ==> p.nextTotal == maxTotal - SumPrices(priced))
      && (maxTotal == 0 ==> p.nextTotal == 0)
      && (maxNumber == 0 && maxTotal == 0 ==> p.kept == priced)
      && (maxTotal == 0 && maxNumber > 0 ==> |p.kept| == if |priced| > maxNumber then maxNumber else |priced|)
      && (maxTotal != 0 ==>
            var w := |KeepWithinTotal(priced, 0, maxTotal).0|;
            |p.kept| == if maxNumber < 0 then (if w + maxNumber > 0 then w + maxNumber else 0)
                        else if maxNumber > 0 && w > maxNumber then maxNumber
                        else w)
  {
    SelectFromPagePrefix(maxPrice, maxNumber, maxTotal, raw);
    SelectFromPageCut(maxPrice, maxNumber, maxTotal, raw);
    SelectFromPageLength(maxPrice, maxNumber, maxTotal, raw);
  }

  /**
    How many listings a page keeps, in every case: the count cap applies
    to what the total cap left, a negative count cap dropping that many
    from the back.
  */
  lemma SelectFromPageLength(maxPrice: int, maxNumber: int, maxTotal: int, raw: seq<Listing>)
    ensures var p := SelectFromPage(maxPrice, maxNumber, maxTotal, raw);
      var priced := PricedUnsold(maxPrice, raw);
      && (maxTotal == 0 && maxNumber > 0 ==> |p.kept| == if |priced| > maxNumber then maxNumber else |priced|)
      && (maxTotal != 0 ==>
            var w := |KeepWithinTotal(priced, 0, maxTotal).0|;
            |p.kept| == if maxNumber < 0 then (if w + maxNumber > 0 then w + maxNumber else 0)
                        else if maxNumber > 0 && w > maxNumber then maxNumber
                        else w)
  {
  }

  lemma SelectFromPagePrefix(maxPrice: int, maxNumber: int, maxTotal: int, raw: seq<Listing>)
    ensures var p := SelectFromPage(maxPrice, maxNumber, maxTotal, raw);
      var priced := PricedUnsold(maxPrice, raw);
      && |p.kept| <= |priced| && p.kept == priced[..|p.kept|]
      && (maxNumber > 0 ==> |p.kept| <= maxNumber)
      && (maxTotal != 0 && |p.kept| > 0 ==> SumPrices(p.kept) <= maxTotal)
      && (maxTotal != 0 ==> p.nextTotal == maxTotal - SumPrices(priced))
      && (maxTotal == 0 ==> p.nextTotal == 0)
  {
    var priced := PricedUnsold(maxPrice, raw);
    var capped := if maxTotal != 0 then KeepWithinTotal(priced, 0, maxTotal).0 else priced;
    var kept := SelectFromPage(maxPrice, maxNumber, maxTotal, raw).kept;
    assert kept == capped[..|kept|];
    assert capped == priced[..|capped|];
    assert priced[..|capped|][..|kept|] == priced[..|kept|];
    SumPricesPrefix(capped, |kept|);
  }

  /** Where the page's selection stops short of every priced unsold listing, a cap binds. */
  lemma SelectFromPageCut(maxPrice: int, maxNumber: int, maxTotal: int, raw: seq<Listing>)
    ensures var p := SelectFromPage(maxPrice, maxNumber, maxTotal, raw);
      var priced := PricedUnsold(maxPrice, raw);
      && (|p.kept| < |priced| ==>
            || (maxNumber > 0 && |p.kept| == maxNumber)
            || maxNumber < 0
            || (maxTotal != 0 && SumPrices(priced[..|p.kept| + 1]) > maxTotal))
      && (maxNumber < 0 && maxTotal == 0 ==> |p.kept| == if |priced| + maxNumber > 0 then |priced| + maxNumber else 0)
      && (maxNumber == 0 && maxTotal == 0 ==> p.kept == priced)
  {
    var priced := PricedUnsold(maxPrice, raw);
    var capped := if maxTotal != 0 then KeepWithinTotal(priced, 0, maxTotal).0 else priced;
    var kept := SelectFromPage(maxPrice, maxNumber, maxTotal, raw).kept;
    if |kept| < |priced| && !(maxNumber > 0 && |kept| == maxNumber) && maxNumber >= 0 {
      assert kept == capped;
      assert capped == priced[..|capped|];
    }
  }

  /** The facts about one page that every later page relies on. */
  lemma SelectFromPageSound(maxPrice: int, maxNumber: int, maxTotal: int, raw: seq<Listing>)
    ensures var p := SelectFromPage(maxPrice, maxNumber, maxTotal, raw);
      && IsSubsequence(p.kept, raw)
      && (forall x | x in p.kept :: Unsold(x) && (maxPrice != 0 ==> x.price <= maxPrice))
  {
    var priced := PricedUnsold(maxPrice, raw);
    var capped := if maxTotal != 0 then KeepWithinTotal(priced, 0, maxTotal).0 else priced;
    var kept := SelectFromPage(maxPrice, maxNumber, maxTotal, raw).kept;
    assert capped == priced[..|capped|];
    assert kept == capped[..|kept|];
    SubsequenceOfPrefix(capped, |kept|);
    SubsequenceOfPrefix(priced, |capped|);
    SubsequenceTransitive(kept, capped, priced);
    SubsequenceTransitive(kept, priced, raw);
    SubsequenceMembers(kept, priced);
  }

  /**
    The unsold listings of a page, and of those the ones within `maxPrice`
    if it is set, in page order.
  */
  function PricedUnsold(maxPrice: int, raw: seq<Listing>): (priced: seq<Listing>)
    ensures IsSubsequence(priced, raw)
    ensures forall x :: x in priced <==> x in raw && Unsold(x) && (maxPrice != 0 ==> x.price <= maxPrice)
    ensures maxPrice == 0 ==> priced == Filter(raw, Unsold)
  {
    var unsold := Filter(raw, Unsold);
    if maxPrice != 0 then
      var priced := Filter(unsold, PriceAtMost(maxPrice));
      SubsequenceTransitive(priced, unsold, raw);
      priced
    else unsold
  }

  /** Pricing distributes over concatenation. */
  lemma PricedUnsoldConcat(maxPrice: int, xs: seq<Listing>, ys: seq<Listing>)
    ensures PricedUnsold(maxPrice, xs + ys) == PricedUnsold(maxPrice, xs) + PricedUnsold(maxPrice, ys)
  {
    FilterConcat(xs, ys, Unsold);
    if maxPrice != 0 {
      FilterConcat(Filter(xs, Unsold), Filter(ys, Unsold), PriceAtMost(maxPrice));
    }
  }

  /** The page the indexer returns for a 1-based page number; past the end, none. */
  function PageAt(pages: seq<seq<Listing>>, page: nat): seq<Listing> {
    if 1 <= page <= |pages| then pages[page - 1] else []
  }

  /** All listings from `page` on, in order. */
  function PagesFrom(pages: seq<seq<Listing>>, page: nat): seq<Listing>
    decreases if page <= |pages| then |pages| + 1 - page else 0
  {
    if 1 <= page <= |pages| then pages[page - 1] + PagesFrom(pages, page + 1)
    else if page == 0 then PagesFrom(pages, 1)
    else []
  }

  /**
    `getInscriptionsToBuy(maxPrice, maxNumber, maxTotal, collection, page)`:
    select from this page and, unless it is the last, append the selection
    from the next one. The next request gets `maxNumber - available`
    (0 if `maxNumber` is 0) and the remaining total.
  */
  function InscriptionsToBuy(maxPrice: int, maxNumber: int, maxTotal: int,
                             pages: seq<seq<Listing>>, page: nat): (r: seq<Listing>)
    ensures forall x | x in r :: Unsold(x) && (maxPrice != 0 ==> x.price <= maxPrice)
    ensures IsSubsequence(r, PagesFrom(pages, page))
    decreases if page <= |pages| then |pages| + 1 - page else 0
  {
    var p := SelectFromPage(maxPrice, maxNumber, maxTotal, PageAt(pages, page));
    SelectFromPageSound(maxPrice, maxNumber, maxTotal, PageAt(pages, page));
    if p.lastPage then
      SubsequenceExtendBack(p.kept, PageAt(pages, page), PagesFrom(pages, page + 1));
      p.kept
    else
      var rest := InscriptionsToBuy(maxPrice, if maxNumber != 0 then maxNumber - p.available else 0,
                                    p.nextTotal, pages, page + 1);
      SubsequenceConcat(p.kept, pages[page - 1], rest, PagesFrom(pages, page + 1));
      p.kept + rest
  }

  /**
    Paging stops at the first short page: whatever the indexer would
    return after it never affects the result.
  */
  lemma {:induction false} ReadsNoPageAfterShortPage(maxPrice: int, maxNumber: int, maxTotal: int,
                                                     pages: seq<seq<Listing>>, page: nat, j: nat,
                                                     later: seq<seq<Listing>>)
    requires 1 <= page <= j <= |pages| && |pages[j - 1]| != PAGE_LIMIT
    ensures InscriptionsToBuy(maxPrice, maxNumber, maxTotal, pages, page)
         == InscriptionsToBuy(maxPrice, maxNumber, maxTotal, pages[..j] + later, page)
    decreases j - page, 1
  {
    var cut := pages[..j] + later;
    assert cut[page - 1] == pages[page - 1];
    assert PageAt(cut, page) == PageAt(pages, page);
    if |PageAt(pages, page)| != PAGE_LIMIT {
      UnfoldLastPage(maxPrice, maxNumber, maxTotal, pages, page);
      UnfoldLastPage(maxPrice, maxNumber, maxTotal, cut, page);
    } else {
      ReadsNoPagePastFullPage(maxPrice, maxNumber, maxTotal, pages, page, j, later);
    }
  }

  lemma {:induction false} ReadsNoPagePastFullPage(maxPrice: int, maxNumber: int, maxTotal: int,
                                                   pages: seq<seq<Listing>>, page: nat, j: nat,
                                                   later: seq<seq<Listing>>)
    requires 1 <= page <= j <= |pages| && |pages[j - 1]| != PAGE_LIMIT
    requires |PageAt(pages, page)| == PAGE_LIMIT
    requires PageAt(pages[..j] + later, page) == PageAt(pages, page)
    ensures InscriptionsToBuy(maxPrice, maxNumber, maxTotal, pages, page)
         == InscriptionsToBuy(maxPrice, maxNumber, maxTotal, pages[..j] + later, page)
    decreases j - page, 0
  {
    var cut := pages[..j] + later;
    var p := SelectFromPage(maxPrice, maxNumber, maxTotal, PageAt(pages, page));
    assert page < j;
    var nextNumber := if maxNumber != 0 then maxNumber - p.available else 0;
    ReadsNoPageAfterShortPage(maxPrice, nextNumber, p.nextTotal, pages, page + 1, j, later);
    FullPagesStepAlike(maxPrice, maxNumber, maxTotal, pages, cut, page);
  }

  /** Two page sources that agree on a full page and on what follows agree from that page on. */
  lemma FullPagesStepAlike(maxPrice: int, maxNumber: int, maxTotal: int,
                           a: seq<seq<Listing>>, b: seq<seq<Listing>>, page: nat)
    requires |PageAt(a, page)| == PAGE_LIMIT && PageAt(b, page) == PageAt(a, page)
    requires var p := SelectFromPage(maxPrice, maxNumber, maxTotal, PageAt(a, page));
      var nextNumber := if maxNumber != 0 then maxNumber - p.available else 0;
      InscriptionsToBuy(maxPrice, nextNumber, p.nextTotal, a, page + 1)
      == InscriptionsToBuy(maxPrice, nextNumber, p.nextTotal, b, page + 1)
    ensures InscriptionsToBuy(maxPrice, maxNumber, maxTotal, a, page)
         == InscriptionsToBuy(maxPrice, maxNumber, maxTotal, b, page)
  {
    UnfoldFullPage(maxPrice, maxNumber, maxTotal, a, page);
    UnfoldFullPage(maxPrice, maxNumber, maxTotal, b, page);
    SelectSamePage(maxPrice, maxNumber, maxTotal, PageAt(b, page), PageAt(a, page));
  }

  /** `InscriptionsToBuy` on a short page. */
  lemma UnfoldLastPage(maxPrice: int, maxNumber: int, maxTotal: int, pages: seq<seq<Listing>>, page: nat)
    requires |PageAt(pages, page)| != PAGE_LIMIT
    ensures InscriptionsToBuy(maxPrice, maxNumber, maxTotal, pages, page)
      == SelectFromPage(maxPrice, maxNumber, maxTotal, PageAt(pages, page)).kept
  {
  }

  /** The step of `InscriptionsToBuy` past a full page. */
  lemma UnfoldFullPage(maxPrice: int, maxNumber: int, maxTotal: int, pages: seq<seq<Listing>>, page: nat)
    requires |PageAt(pages, page)| == PAGE_LIMIT
    ensures var p := SelectFromPage(maxPrice, maxNumber, maxTotal, PageAt(pages, page));
      InscriptionsToBuy(maxPrice, maxNumber, maxTotal, pages, page)
      == p.kept + InscriptionsToBuy(maxPrice, if maxNumber != 0 then maxNumber - p.available else 0,
                                    p.nextTotal, pages, page + 1)
  {
  }

  lemma SelectSamePage(maxPrice: int, maxNumber: int, maxTotal: int, a: seq<Listing>, b: seq<Listing>)
    requires a == b
    ensures SelectFromPage(maxPrice, maxNumber, maxTotal, a) == SelectFromPage(maxPrice, maxNumber, maxTotal, b)
  {
  }

  /** Every page before the last is full and the last one is short. */
  predicate WellPaged(pages: seq<seq<Listing>>) {
    && (forall i | 0 <= i < |pages| - 1 :: |pages[i]| == PAGE_LIMIT)
    && (|pages| == 0 || |pages[|pages| - 1]| != PAGE_LIMIT)
  }

  /**
    With no count and no total limit, the selection is every unsold
    listing of every page under the price cap (if any), in order.
  */
  lemma {:induction false} PriceCapSelectsEveryPricedUnsold(maxPrice: int, pages: seq<seq<Listing>>, page: nat)
    requires WellPaged(pages) && 1 <= page
    ensures InscriptionsToBuy(maxPrice, 0, 0, pages, page) == PricedUnsold(maxPrice, PagesFrom(pages, page))
    decreases if page <= |pages| then |pages| + 1 - page else 0
  {
    if |PageAt(pages, page)| != PAGE_LIMIT {
      PriceCapOnLastPage(maxPrice, pages, page);
    } else {
      PriceCapSelectsEveryPricedUnsold(maxPrice, pages, page + 1);
      PriceCapOnFullPage(maxPrice, pages, page);
    }
  }

  lemma PriceCapOnLastPage(maxPrice: int, pages: seq<seq<Listing>>, page: nat)
    requires WellPaged(pages) && 1 <= page && |PageAt(pages, page)| != PAGE_LIMIT
    ensures InscriptionsToBuy(maxPrice, 0, 0, pages, page) == PricedUnsold(maxPrice, PagesFrom(pages, page))
  {
    var raw := PageAt(pages, page);
    calc {
      InscriptionsToBuy(maxPrice, 0, 0, pages, page);
      { UnfoldLastPage(maxPrice, 0, 0, pages, page); }
      SelectFromPage(maxPrice, 0, 0, raw).kept;
      { SelectFromPageCut(maxPrice, 0, 0, raw); }
      PricedUnsold(maxPrice, raw);
      { LastPageEndsPages(pages, page); UnfoldPagesFrom(pages, page); assert raw + [] == raw; }
      PricedUnsold(maxPrice, PagesFrom(pages, page));
    }
  }

  lemma PriceCapOnFullPage(maxPrice: int, pages: seq<seq<Listing>>, page: nat)
    requires 1 <= page && |PageAt(pages, page)| == PAGE_LIMIT
    requires InscriptionsToBuy(maxPrice, 0, 0, pages, page + 1) == PricedUnsold(maxPrice, PagesFrom(pages, page + 1))
    ensures InscriptionsToBuy(maxPrice, 0, 0, pages, page) == PricedUnsold(maxPrice, PagesFrom(pages, page))
  {
    var raw := PageAt(pages, page);
    var rest := PagesFrom(pages, page + 1);
    calc {
      InscriptionsToBuy(maxPrice, 0, 0, pages, page);
      { PriceCapFullPage(maxPrice, pages, page); }
      SelectFromPage(maxPrice, 0, 0, raw).kept + InscriptionsToBuy(maxPrice, 0, 0, pages, page + 1);
      { SelectFromPageCut(maxPrice, 0, 0, raw); }
      PricedUnsold(maxPrice, raw) + PricedUnsold(maxPrice, rest);
      { PricedUnsoldConcat(maxPrice, raw, rest); }
      PricedUnsold(maxPrice, raw + rest);
      { UnfoldPagesFrom(pages, page); }
      PricedUnsold(maxPrice, PagesFrom(pages, page));
    }
  }

  lemma PriceCapFullPage(maxPrice: int, pages: seq<seq<Listing>>, page: nat)
    requires |PageAt(pages, page)| == PAGE_LIMIT
    ensures InscriptionsToBuy(maxPrice, 0, 0, pages, page)
      == SelectFromPage(maxPrice, 0, 0, PageAt(pages, page)).kept + InscriptionsToBuy(maxPrice, 0, 0, pages, page + 1)
  {
    UnfoldFullPage(maxPrice, 0, 0, pages, page);
  }

  /** `PagesFrom` from a 1-based page: that page, then the rest. */
  lemma UnfoldPagesFrom(pages: seq<seq<Listing>>, page: nat)
    requires 1 <= page
    ensures PagesFrom(pages, page) == PageAt(pages, page) + PagesFrom(pages, page + 1)
  {
  }

  /** In well-formed pages, nothing follows a short page. */
  lemma LastPageEndsPages(pages: seq<seq<Listing>>, page: nat)
    requires WellPaged(pages) && 1 <= page && |PageAt(pages, page)| != PAGE_LIMIT
    ensures PagesFrom(pages, page + 1) == []
  {
    assert page >= |pages|;
  }

  // ---------------------------------------------------------------------
  // Budgets that carry over from page to page

  /**
    A count limit as a budget: `None` for no limit (the option was 0 or
    absent), and nothing at all for a negative limit.
  */
  function Budget(limit: int): (b: Option<nat>)
    ensures b.None? <==> limit == 0
    ensures limit > 0 ==> b == Some(limit)
    ensures limit < 0 ==> b == Some(0)
  {
    if limit == 0 then None else if limit < 0 then Some(0) else Some(limit)
  }

  /**
    A total limit as a budget: `None` for no limit. What is left of it may
    go negative, once the running total has passed it; then nothing more
    fits, as in the code as written.
  */
  function TotalBudget(limit: int): (b: Option<int>)
    ensures b.None? <==> limit == 0
    ensures b.Some? ==> b.value == limit
  {
    if limit == 0 then None else Some(limit)
  }

  /** What is left of a count budget once `taken` listings are kept. */
  function NumberAfter(numberLeft: Option<nat>, taken: nat): Option<nat>
    requires numberLeft.Some? ==> taken <= numberLeft.value
  {
    if numberLeft.Some? then Some(numberLeft.value - taken) else None
  }

  /** What is left of a total budget once the running total has seen `seen` more. */
  function TotalAfter(totalLeft: Option<int>, seen: int): Option<int> {
    if totalLeft.Some? then Some(totalLeft.value - seen) else None
  }

  /** The page selection with the remaining budgets applied. */
  function SelectWithin(maxPrice: int, numberLeft: Option<nat>, totalLeft: Option<int>,
                        raw: seq<Listing>): (kept: seq<Listing>)
    ensures |kept| <= |PricedUnsold(maxPrice, raw)| && kept == PricedUnsold(maxPrice, raw)[..|kept|]
    ensures numberLeft.Some? ==> |kept| <= numberLeft.value
    ensures totalLeft.Some? ==> if totalLeft.value < 0 then kept == [] else SumPrices(kept) <= totalLeft.value
  {
    var priced := PricedUnsold(maxPrice, raw);
    var capped := if totalLeft.Some? then KeepWithinTotal(priced, 0, totalLeft.value).0 else priced;
    var kept := if numberLeft.Some? && |capped| > numberLeft.value then capped[..numberLeft.value] else capped;
    assert capped == priced[..|capped|];
    assert kept == capped[..|kept|];
    assert priced[..|capped|][..|kept|] == priced[..|kept|];
    SumPricesPrefix(capped, |kept|);
    kept
  }

  /**
    `r` is a prefix of `all`, and stops short of it only where the count
    budget is reached or the next listing would take the total past the
    total budget.
  */
  predicate PrefixCut(r: seq<Listing>, all: seq<Listing>, numberLeft: Option<nat>, totalLeft: Option<int>) {
    && r <= all
    && (|r| < |all| ==>
          || (numberLeft.Some? && |r| == numberLeft.value)
          || (totalLeft.Some? && SumPrices(all[..|r| + 1]) > totalLeft.value))
  }

  /** A page's budgeted selection is cut only where a budget binds. */
  lemma SelectWithinCut(maxPrice: int, numberLeft: Option<nat>, totalLeft: Option<int>, raw: seq<Listing>)
    ensures PrefixCut(SelectWithin(maxPrice, numberLeft, totalLeft, raw), PricedUnsold(maxPrice, raw), numberLeft, totalLeft)
  {
    var priced := PricedUnsold(maxPrice, raw);
    var capped := if totalLeft.Some? then KeepWithinTotal(priced, 0, totalLeft.value).0 else priced;
    var kept := SelectWithin(maxPrice, numberLeft, totalLeft, raw);
    if |kept| < |priced| && !(numberLeft.Some? && |kept| == numberLeft.value) {
      assert kept == capped;
    }
  }

  lemma SelectWithinSound(maxPrice: int, numberLeft: Option<nat>, totalLeft: Option<int>, raw: seq<Listing>)
    ensures var kept := SelectWithin(maxPrice, numberLeft, totalLeft, raw);
      && IsSubsequence(kept, raw)
      && (forall x | x in kept :: Unsold(x) && (maxPrice != 0 ==> x.price <= maxPrice))
  {
    var priced := PricedUnsold(maxPrice, raw);
    var kept := SelectWithin(maxPrice, numberLeft, totalLeft, raw);
    SubsequenceOfPrefix(priced, |kept|);
    SubsequenceTransitive(kept, priced, raw);
    SubsequenceMembers(kept, priced);
  }

  /** The listings of the given pages, page after page. */
  function Joined(pages: seq<seq<Listing>>): seq<Listing>
    decreases |pages|
  {
    if |pages| == 0 then [] else pages[0] + Joined(pages[1..])
  }

  /** Reading from page `page` on is reading the pages that remain from there. */
  lemma {:induction false} PagesFromIsJoined(pages: seq<seq<Listing>>, page: nat)
    requires 1 <= page <= |pages| + 1
    ensures PagesFrom(pages, page) == Joined(pages[page - 1..])
    decreases |pages| + 1 - page
  {
    if page <= |pages| {
      PagesFromIsJoined(pages, page + 1);
      assert pages[page - 1..][1..] == pages[page..];
    }
  }

  lemma WellPagedRest(pages: seq<seq<Listing>>)
    requires WellPaged(pages) && |pages| > 0
    ensures WellPaged(pages[1..])
  {
    forall i | 0 <= i < |pages[1..]| - 1
      ensures |pages[1..][i]| == PAGE_LIMIT
    {
      assert pages[1..][i] == pages[i + 1];
    }
  }

  /**
    `getInscriptionsToBuy` over the pages still to be read, with the
    budgets carried as what is left of them, so that an exhausted budget
    stays exhausted instead of turning into "no limit" on the next page.
    The count budget shrinks by the listings kept; the total budget, as in
    the code as written, by every price the running total saw.
  */
  function InscriptionsToBuyWithin(maxPrice: int, numberLeft: Option<nat>, totalLeft: Option<int>,
                                   pages: seq<seq<Listing>>): (r: seq<Listing>)
    ensures numberLeft.Some? ==> |r| <= numberLeft.value
    ensures totalLeft.Some? ==> if totalLeft.value < 0 then r == [] else SumPrices(r) <= totalLeft.value
    decreases |pages|
  {
    if |pages| == 0 then []
    else
      var kept := SelectWithin(maxPrice, numberLeft, totalLeft, pages[0]);
      if |pages[0]| != PAGE_LIMIT then kept
      else
        var seen := SumPrices(PricedUnsold(maxPrice, pages[0]));
        var rest := InscriptionsToBuyWithin(maxPrice, NumberAfter(numberLeft, |kept|), TotalAfter(totalLeft, seen), pages[1..]);
        SumPricesConcat(kept, rest);
        SumPricesPrefix(PricedUnsold(maxPrice, pages[0]), |kept|);
        kept + rest
  }

  /** The budgeted selection takes only unsold listings under the price cap, in page order. */
  lemma {:induction false} WithinSound(maxPrice: int, numberLeft: Option<nat>, totalLeft: Option<int>,
                                       pages: seq<seq<Listing>>)
    ensures var r := InscriptionsToBuyWithin(maxPrice, numberLeft, totalLeft, pages);
      && (forall x | x in r :: Unsold(x) && (maxPrice != 0 ==> x.price <= maxPrice))
      && IsSubsequence(r, Joined(pages))
    decreases |pages|
  {
    if |pages| > 0 {
      var kept := SelectWithin(maxPrice, numberLeft, totalLeft, pages[0]);
      SelectWithinSound(maxPrice, numberLeft, totalLeft, pages[0]);
      if |pages[0]| != PAGE_LIMIT {
        SubsequenceExtendBack(kept, pages[0], Joined(pages[1..]));
      } else {
        var numberNext := NumberAfter(numberLeft, |kept|);
        var totalNext := TotalAfter(totalLeft, SumPrices(PricedUnsold(maxPrice, pages[0])));
        WithinSound(maxPrice, numberNext, totalNext, pages[1..]);
        var rest := InscriptionsToBuyWithin(maxPrice, numberNext, totalNext, pages[1..]);
        SubsequenceConcat(kept, pages[0], rest, Joined(pages[1..]));
      }
    }
  }

  /**
    The floor selection with `--number` and `--max` honoured across pages:
    never more than `maxNumber` listings, never more than `maxTotal` in
    prices, when those are given.
  */
  function InscriptionsToBuyCapped(maxPrice: int, maxNumber: int, maxTotal: int,
                                   pages: seq<seq<Listing>>): (r: seq<Listing>)
    ensures forall x | x in r :: Unsold(x) && (maxPrice != 0 ==> x.price <= maxPrice)
    ensures IsSubsequence(r, PagesFrom(pages, 1))
    ensures maxNumber > 0 ==> |r| <= maxNumber
    ensures maxTotal > 0 ==> SumPrices(r) <= maxTotal
    ensures maxNumber < 0 || maxTotal < 0 ==> r == []
  {
    WithinSound(maxPrice, Budget(maxNumber), TotalBudget(maxTotal), pages);
    PagesFromIsJoined(pages, 1);
    InscriptionsToBuyWithin(maxPrice, Budget(maxNumber), TotalBudget(maxTotal), pages)
  }

  /**
    The corrected selection takes the cheapest listings first: it is a
    prefix of every unsold listing under the price cap, page after page,
    and it stops short of all of them only where `--number` is reached or
    the next listing would take the total past `--max`.
  */
  lemma CappedTakesPricedPrefix(maxPrice: int, maxNumber: int, maxTotal: int, pages: seq<seq<Listing>>)
    requires WellPaged(pages)
    ensures var all := PricedUnsold(maxPrice, PagesFrom(pages, 1));
      var r := InscriptionsToBuyCapped(maxPrice, maxNumber, maxTotal, pages);
      && |r| <= |all| && r == all[..|r|]
      && (|r| < |all| ==>
            || (maxNumber > 0 && |r| == maxNumber)
            || maxNumber < 0
            || (maxTotal != 0 && SumPrices(all[..|r| + 1]) > maxTotal))
      && (maxNumber == 0 && maxTotal == 0 ==> r == all)
  {
    var all := PricedUnsold(maxPrice, PagesFrom(pages, 1));
    var r := InscriptionsToBuyCapped(maxPrice, maxNumber, maxTotal, pages);
    PagesFromIsJoined(pages, 1);
    assert pages[0..] == pages;
    WithinTakesPricedPrefix(maxPrice, Budget(maxNumber), TotalBudget(maxTotal), pages);
    assert PrefixCut(r, all, Budget(maxNumber), TotalBudget(maxTotal));
    if maxNumber == 0 && maxTotal == 0 {
      assert |r| == |all|;
    }
  }

  /** `CappedTakesPricedPrefix` over any pages that remain, with any budgets left. */
  lemma {:induction false} WithinTakesPricedPrefix(maxPrice: int, numberLeft: Option<nat>, totalLeft: Option<int>,
                                                   pages: seq<seq<Listing>>)
    requires WellPaged(pages)
    ensures PrefixCut(InscriptionsToBuyWithin(maxPrice, numberLeft, totalLeft, pages),
                      PricedUnsold(maxPrice, Joined(pages)), numberLeft, totalLeft)
    decreases |pages|
  {
    if |pages| == 0 {
    } else if |pages[0]| != PAGE_LIMIT {
      WithinPrefixOnLastPage(maxPrice, numberLeft, totalLeft, pages);
    } else {
      var kept := SelectWithin(maxPrice, numberLeft, totalLeft, pages[0]);
      var numberNext := NumberAfter(numberLeft, |kept|);
      var totalNext := TotalAfter(totalLeft, SumPrices(PricedUnsold(maxPrice, pages[0])));
      WellPagedRest(pages);
      WithinTakesPricedPrefix(maxPrice, numberNext, totalNext, pages[1..]);
      WithinPrefixOnFullPage(maxPrice, numberLeft, totalLeft, pages[0], pages[1..], numberNext, totalNext);
    }
  }

  lemma WithinPrefixOnLastPage(maxPrice: int, numberLeft: Option<nat>, totalLeft: Option<int>,
                               pages: seq<seq<Listing>>)
    requires WellPaged(pages) && |pages| > 0 && |pages[0]| != PAGE_LIMIT
    ensures PrefixCut(InscriptionsToBuyWithin(maxPrice, numberLeft, totalLeft, pages),
                      PricedUnsold(maxPrice, Joined(pages)), numberLeft, totalLeft)
  {
    assert |pages| == 1;
    assert Joined(pages) == pages[0] + [];
    assert pages[0] + [] == pages[0];
    SelectWithinCut(maxPrice, numberLeft, totalLeft, pages[0]);
  }

  /**
    Past a full page: the page's cut prefix followed by the cut prefix of
    the pages after it, the budgets reduced as the page left them.
  */
  lemma WithinPrefixOnFullPage(maxPrice: int, numberLeft: Option<nat>, totalLeft: Option<int>,
                               raw: seq<Listing>, after: seq<seq<Listing>>,
                               numberNext: Option<nat>, totalNext: Option<int>)
    requires |raw| == PAGE_LIMIT
    requires numberNext == NumberAfter(numberLeft, |SelectWithin(maxPrice, numberLeft, totalLeft, raw)|)
    requires totalNext == TotalAfter(totalLeft, SumPrices(PricedUnsold(maxPrice, raw)))
    requires PrefixCut(InscriptionsToBuyWithin(maxPrice, numberNext, totalNext, after),
                       PricedUnsold(maxPrice, Joined(after)), numberNext, totalNext)
    ensures PrefixCut(InscriptionsToBuyWithin(maxPrice, numberLeft, totalLeft, [raw] + after),
                      PricedUnsold(maxPrice, Joined([raw] + after)), numberLeft, totalLeft)
  {
    var pages := [raw] + after;
    assert pages[0] == raw && pages[1..] == after;
    var priced := PricedUnsold(maxPrice, raw);
    var kept := SelectWithin(maxPrice, numberLeft, totalLeft, raw);
    var rest := InscriptionsToBuyWithin(maxPrice, numberNext, totalNext, after);
    var allRest := PricedUnsold(maxPrice, Joined(after));
    assert InscriptionsToBuyWithin(maxPrice, numberLeft, totalLeft, pages) == kept + rest;
    assert Joined(pages) == raw + Joined(after);
    PricedUnsoldConcat(maxPrice, raw, Joined(after));
    SelectWithinCut(maxPrice, numberLeft, totalLeft, raw);
    if |kept| < |priced| {
      CutStopsRest(priced, kept, rest, numberLeft, totalLeft);
    }
    PrefixCutConcat(kept + rest, priced + allRest, priced, allRest, kept, rest,
                    numberLeft, totalLeft, numberNext, totalNext);
  }

  /** A page cut short by a budget leaves nothing for the pages after it. */
  lemma CutStopsRest(priced: seq<Listing>, kept: seq<Listing>, rest: seq<Listing>,
                     numberLeft: Option<nat>, totalLeft: Option<int>)
    requires PrefixCut(kept, priced, numberLeft, totalLeft) && |kept| < |priced|
    requires numberLeft.Some? ==> |kept| <= numberLeft.value && |rest| <= numberLeft.value - |kept|
    requires totalLeft.Some? && totalLeft.value - SumPrices(priced) < 0 ==> rest == []
    ensures rest == []
  {
    if !(numberLeft.Some? && |kept| == numberLeft.value) {
      SumPricesPrefix(priced, |kept| + 1);
    }
  }

  /** A page's cut prefix followed by the next pages' cut prefix is a cut prefix of both. */
  lemma PrefixCutConcat(r: seq<Listing>, all: seq<Listing>,
                        priced: seq<Listing>, allRest: seq<Listing>, kept: seq<Listing>, rest: seq<Listing>,
                        numberLeft: Option<nat>, totalLeft: Option<int>,
                        numberNext: Option<nat>, totalNext: Option<int>)
    requires r == kept + rest && all == priced + allRest
    requires PrefixCut(kept, priced, numberLeft, totalLeft)
    requires numberLeft.Some? ==> |kept| <= numberLeft.value
    requires numberNext == NumberAfter(numberLeft, |kept|) && totalNext == TotalAfter(totalLeft, SumPrices(priced))
    requires PrefixCut(rest, allRest, numberNext, totalNext)
    requires |kept| < |priced| ==> rest == []
    ensures PrefixCut(r, all, numberLeft, totalLeft)
  {
    if |kept| == |priced| {
      assert kept == priced;
      WholePageThenRest(r, all, priced, allRest, rest, numberLeft, totalLeft, numberNext, totalNext);
    } else {
      ShortPageEndsSelection(r, all, priced, allRest, numberLeft, totalLeft);
    }
  }

  lemma ShortPageEndsSelection(r: seq<Listing>, all: seq<Listing>, priced: seq<Listing>, allRest: seq<Listing>,
                               numberLeft: Option<nat>, totalLeft: Option<int>)
    requires all == priced + allRest
    requires PrefixCut(r, priced, numberLeft, totalLeft) && |r| < |priced|
    ensures PrefixCut(r, all, numberLeft, totalLeft)
  {
    assert all[..|r| + 1] == priced[..|r| + 1];
  }

  lemma WholePageThenRest(r: seq<Listing>, all: seq<Listing>,
                          priced: seq<Listing>, allRest: seq<Listing>, rest: seq<Listing>,
                          numberLeft: Option<nat>, totalLeft: Option<int>,
                          numberNext: Option<nat>, totalNext: Option<int>)
    requires r == priced + rest && all == priced + allRest
    requires numberLeft.Some? ==> |priced| <= numberLeft.value
    requires numberNext == NumberAfter(numberLeft, |priced|) && totalNext == TotalAfter(totalLeft, SumPrices(priced))
    requires PrefixCut(rest, allRest, numberNext, totalNext)
    ensures PrefixCut(r, all, numberLeft, totalLeft)
  {
    WholePageIsPrefix(r, all, priced, allRest, rest);
    if |r| < |all| {
      if numberNext.Some? && |rest| == numberNext.value {
      } else {
        WholePageCutByTotal(r, all, priced, allRest, rest, totalLeft.value);
      }
    }
  }

  lemma WholePageIsPrefix(r: seq<Listing>, all: seq<Listing>,
                          priced: seq<Listing>, allRest: seq<Listing>, rest: seq<Listing>)
    requires r == priced + rest && all == priced + allRest && rest <= allRest
    ensures r <= all
  {
    PrefixThenPrefix(priced, allRest, rest);
  }

  lemma WholePageCutByTotal(r: seq<Listing>, all: seq<Listing>,
                            priced: seq<Listing>, allRest: seq<Listing>, rest: seq<Listing>, total: int)
    requires r == priced + rest && all == priced + allRest
    requires |rest| < |allRest| && SumPrices(allRest[..|rest| + 1]) > total - SumPrices(priced)
    ensures SumPrices(all[..|r| + 1]) > total
  {
    NextListingPastTotal(priced, allRest, |rest|, total);
  }

  lemma PrefixThenPrefix(priced: seq<Listing>, allRest: seq<Listing>, rest: seq<Listing>)
    requires |rest| <= |allRest| && rest == allRest[..|rest|]
    ensures priced + rest == (priced + allRest)[..|priced| + |rest|]
  {
  }

  lemma NextListingPastTotal(priced: seq<Listing>, allRest: seq<Listing>, k: nat, total: int)
    requires k < |allRest| && SumPrices(allRest[..k + 1]) > total - SumPrices(priced)
    ensures SumPrices((priced + allRest)[..|priced| + k + 1]) > total
  {
    assert (priced + allRest)[..|priced| + k + 1] == priced + allRest[..k + 1];
    SumPricesConcat(priced, allRest[..k + 1]);
  }

  /**
    On a collection that fits on one page, the capped selection is
    exactly the selection of the code as written.
  */
  lemma CappedAgreesOnOnePage(maxPrice: int, maxNumber: int, maxTotal: int, pages: seq<seq<Listing>>)
    requires |pages| >= 1 && |pages[0]| != PAGE_LIMIT
    requires maxNumber >= 0
    ensures InscriptionsToBuyCapped(maxPrice, maxNumber, maxTotal, pages)
         == InscriptionsToBuy(maxPrice, maxNumber, maxTotal, pages, 1)
  {
    var raw := pages[0];
    assert PageAt(pages, 1) == raw;
    var p := SelectFromPage(maxPrice, maxNumber, maxTotal, raw);
    var kept := SelectWithin(maxPrice, Budget(maxNumber), TotalBudget(maxTotal), raw);
    assert kept == p.kept;
  }

  // ---------------------------------------------------------------------
  // The exhausted-budget overrun of the code as written

  /** A full page of one repeated listing. */
  function FullPage(x: Listing): (page: seq<Listing>)
    ensures |page| == PAGE_LIMIT && forall i | 0 <= i < |page| :: page[i] == x
  {
    seq(PAGE_LIMIT, i => x)
  }

  lemma {:induction false} SumPricesOfRepeated(xs: seq<Listing>, x: Listing)
    requires forall i | 0 <= i < |xs| :: xs[i] == x
    ensures SumPrices(xs) == |xs| * x.price
  {
    if |xs| > 0 {
      SumPricesOfRepeated(xs[1..], x);
    }
  }

  /**
    `--number 20` on a collection whose first page holds 20 unsold
    listings: the next page is asked for `20 - 20 = 0`, which is "no
    limit", and 21 listings are selected.
  */
  lemma NumberLimitOverrunAsWritten(x: Listing)
    requires Unsold(x)
    ensures |InscriptionsToBuy(0, 20, 0, [FullPage(x), [x]], 1)| == 21
  {
    var pages := [FullPage(x), [x]];
    FilterKeepsAll(FullPage(x), Unsold);
    FilterKeepsAll([x], Unsold);
    var p1 := SelectFromPage(0, 20, 0, FullPage(x));
    assert p1.kept == FullPage(x) && p1.available == 20;
    var p2 := SelectFromPage(0, 0, 0, [x]);
    assert p2.kept == [x];
    assert InscriptionsToBuy(0, 0, 0, pages, 2) == [x];
  }

  /**
    `--number 5` on two full pages of unsold listings: the first page keeps
    5, but the next page is asked for `5 - 20 = -15`. That is truthy, and
    `slice(0, -15)` drops the last 15 instead of keeping none, so the
    second page adds 5 more and 10 listings are selected.
  */
  lemma NumberLimitGoesNegativeAsWritten(x: Listing)
    requires Unsold(x)
    ensures |InscriptionsToBuy(0, 5, 0, [FullPage(x), FullPage(x)], 1)| == 10
  {
    var pages := [FullPage(x), FullPage(x)];
    FilterKeepsAll(FullPage(x), Unsold);
    var p1 := SelectFromPage(0, 5, 0, FullPage(x));
    assert |p1.kept| == 5 && p1.available == 20;
    var p2 := SelectFromPage(0, -15, 0, FullPage(x));
    assert |p2.kept| == 5 && p2.available == 20;
    assert PageAt(pages, 3) == [];
    assert InscriptionsToBuy(0, -35, 0, pages, 3) == [];
    assert |InscriptionsToBuy(0, -15, 0, pages, 2)| == 5;
  }

  /**
    `--max 100` on a first page of 20 unsold listings at 5 each: they use
    the budget up exactly, the next page is asked for a total of 0, which
    is "no limit", and the selection costs 105.
  */
  lemma TotalLimitOverrunAsWritten(x: Listing)
    requires Unsold(x) && x.price == 5
    ensures SumPrices(InscriptionsToBuy(0, 0, 100, [FullPage(x), [x]], 1)) == 105
  {
    var pages := [FullPage(x), [x]];
    FilterKeepsAll(FullPage(x), Unsold);
    FilterKeepsAll([x], Unsold);
    SumPricesOfRepeated(FullPage(x), x);
    KeepWithinTotalKeepsAll(FullPage(x), 0, 100);
    var p1 := SelectFromPage(0, 0, 100, FullPage(x));
    assert p1.kept == FullPage(x) && p1.nextTotal == 0;
    var p2 := SelectFromPage(0, 0, 0, [x]);
    assert p2.kept == [x];
    assert InscriptionsToBuy(0, 0, 0, pages, 2) == [x];
    SumPricesConcat(FullPage(x), [x]);
  }

  // ---------------------------------------------------------------------
  // Addresses

  /** The bech32 data alphabet. */
  const BECH32_CHARSET: string := "qpzry9x8gf2tvdw0s3jn54khce6mua7l"

  /**
    The language of `/^bc1([charset]{39}|[charset]{59})$/`: a native
    SegWit mainnet address of a 20-byte (P2WPKH) or 32-byte program.
  */
  predicate P2wpkhPattern(address: string) {
    && |address| >= 3
    && address[..3] == "bc1"
    && (|address| - 3 == 39 || |address| - 3 == 59)
    && forall i | 3 <= i < |address| :: address[i] in BECH32_CHARSET
  }

  /** `isValidP2wpkhAddress`: a scan of the address against the pattern. */
  method IsValidP2wpkhAddress(address: string) returns (valid: bool)
    ensures valid <==> P2wpkhPattern(address)
  {
    if |address| != 42 && |address| != 62 {
      return false;
    }
    if address[0] != 'b' || address[1] != 'c' || address[2] != '1' {
      return false;
    }
    assert address[..3] == "bc1";
    var i := 3;
    while i < |address|
      invariant 3 <= i <= |address|
      invariant forall j | 3 <= j < i :: address[j] in BECH32_CHARSET
    {
      if address[i] !in BECH32_CHARSET {
        return false;
      }
      i := i + 1;
    }
    return true;
  }

  /**
    The pattern is case-sensitive and the alphabet leaves out `1`, `b`,
    `i` and `o`: after the prefix a valid address holds only lower-case
    letters and digits, none of them a look-alike.
  */
  lemma ValidAddressAvoidsLookalikes(address: string)
    requires P2wpkhPattern(address)
    ensures forall i | 3 <= i < |address| ::
      && ('a' <= address[i] <= 'z' || '0' <= address[i] <= '9')
      && address[i] !in {'1', 'b', 'i', 'o'}
  {
    forall i | 3 <= i < |address|
      ensures && ('a' <= address[i] <= 'z' || '0' <= address[i] <= '9')
              && address[i] !in {'1', 'b', 'i', 'o'}
    {
      CharsetHasNoLookalike(address[i]);
    }
  }

  lemma CharsetHasNoLookalike(c: char)
    requires c in BECH32_CHARSET
    ensures ('a' <= c <= 'z' || '0' <= c <= '9') && c !in {'1', 'b', 'i', 'o'}
  {
    var j :| 0 <= j < |BECH32_CHARSET| && BECH32_CHARSET[j] == c;
  }
}

=== FILE: wrappers.dfy ===
/** Option and Result, used for the source's `undefined`/thrown-error paths. */
module Wrappers {

  datatype Option<+T> = None | Some(value: T)

  datatype Result<+T, +E> = Success(value: T) | Failure(error: E)
}
